=== FILE: README.md ===
# Video-call presence and signalling: a Dafny model

This project models the core of a small video-calling web application:

- **Presence registry.** The signalling server keeps `onlineUsers`, an ordered list of `{id, name, socketId}` entries. The `join` and `disconnect` socket handlers maintain it.
- **Call relay.** The `callUser`, `AnswerCall` (registered twice), `rejectCall` and `endCall` handlers forward a call payload to a user. They use the user's registered socket when the registry lists the user, and otherwise the socket.io room named after the user id.
- **Origin policy.** The server parses the `client_url` setting into an allowed-origin list. The HTTP CORS middleware and the socket server each have an origin callback (`Server/index.js:36-41` and `Server/index.js:62-67`); the two are identical, and both are modelled by `Origins.CheckOrigin`. Request URLs containing `/socket.io` bypass the middleware.
- **Session middleware.** `isLogin` takes the session token from the `jwt` cookie or from the `authorization` header. It answers 401 or 500, or passes the request on with `req.user` set.
- **Client pages.** The dashboard has a search filter, an online marker and user selection. The admin page has a three-field search, a user count, the profile-picture URL, and the heading and key fallbacks.

Every handler is one atomic step of the server's single-threaded event loop. Each one is a pure function from the registry, the sending socket and the event to a `StepResult`. A `StepResult` holds the new registry, the list of emissions and whether the handler threw. An emission has an abstract target:

- `ToSocket(sid)`
- `ToRoomExceptSender(uid)` for `socket.to(room)`
- `IoRoom(uid)` for `io.to(room)`
- `BroadcastAll` for `io.emit`
- `BroadcastExceptSender` for `socket.broadcast.emit`

`PresenceHistory.Replay` runs any history of events from the empty registry the server starts with. The main theorem is `PresenceHistory.RegistryReflectsLatestLiveJoin`. After any history in which no handler throws (see "Throws" below), a user is bound to socket `s` exactly when their latest join came from `s` and `s` has not disconnected since. So a stale disconnect never evicts a user who re-joined from a newer socket.

JavaScript values in socket payloads are the datatype `Js.Value`, with JavaScript truthiness. A missing property is `None` or `Undefined`. Strings are `seq<char>`. `toLowerCase` folds ASCII letters only. `trim` removes the ECMAScript white-space and line-terminator code points. `split`, `indexOf`, `replace` with a string pattern, `includes`, `find` and `filter` are modelled in `Strings` and `Seqs`. Each has a contract stating its JavaScript meaning.

Three behaviours of the handlers are easy to misread, and the model keeps them exactly as the code has them:

- A re-`join` with a known id re-binds only the entry's socket. The entry keeps its name and its place in the list (`Server/index.js:85-87`).
- `disconnect` broadcasts the registry even when no entry matched. When several entries share the departing socket, it announces only the first one (`Server/index.js:154-159`).
- A relay event sent without a payload makes the handler throw before anything is emitted: a destructuring of `data` at lines 95, 113, 134 and 144, and the property read `data.to` at line 109 (`Server/index.js:95,109,113,134,144`).

## Model

| member | source | states |
|---|---|---|
| Presence.IndexOfUser | Server/index.js:85 | the position of the first entry with the given id; none exactly when no entry has that id |
| Presence.SocketOf | Server/index.js:98 | a user is resolved exactly when some entry has their id, and while ids are unique the socket is that entry's socket |
| Presence.OnJoin | Server/index.js:79-92 | a missing user or falsy id changes nothing and emits nothing; otherwise the id ends up bound to the sending socket and every other user's binding is unchanged; a known id keeps its entry's id, name and position, and other entries stay as they were; a new id is appended with the given name; the whole new registry is broadcast to everyone; distinct truthy ids stay distinct and truthy |
| Presence.OnDisconnect | Server/index.js:153-160 | the new registry holds exactly the entries not bound to the departing socket, in their old order, each as many times as before; the registry is always broadcast first; a `userDisconnected` announcement to the other sockets follows exactly when some entry was bound to that socket, and it carries the id of the first such entry; a user is unbound exactly when bound to the departing socket, so one re-bound elsewhere stays; the registry invariant is preserved |
| Presence.Route | Server/index.js:98-105 | the target is the socket of the registered entry with the user's id when there is one, otherwise the room named by the id with the sender excluded |
| Presence.Relay | Server/index.js:100-104 | one emission routed as above whose payload has exactly the listed fields, each holding the value sent under that name, with every other field undefined |
| Presence.OnCallUser | Server/index.js:94-106 | the registry is unchanged; one `callUser` emission routed to `userToCall` carrying signal, from, name, profilePicture and email as sent; a missing payload throws and emits nothing |
| Presence.OnAnswerCall | Server/index.js:108-141 | both listeners run in registration order: the first sends `callAccepted` to the room `to` through the server (sender included) carrying only signal and from; the second sends another `callAccepted`, routed through the registry to `to`, with all five fields; the registry is unchanged; a missing payload makes the first listener throw, so neither emits |
| Presence.OnRejectCall | Server/index.js:112-131 | the registry is unchanged; one `callRejected` emission routed to `to` carrying from, name, profilePicture and email as sent; a missing payload throws and emits nothing |
| Presence.OnEndCall | Server/index.js:143-151 | the registry is unchanged; one `endCall` emission routed to `to` carrying from and name as sent; a missing payload throws and emits nothing |
| Presence.Step | Server/index.js:76-160 | every handler preserves distinct truthy ids; the relay handlers never change the registry; a malformed join is a no-op |
| PresenceHistory.Replay | Server/index.js:73 | every registry reachable from the initial empty list has distinct, truthy ids |
| PresenceHistory.ReplayFollowsBinding | Server/index.js:85-155 | after any history, the registry's binding of each user equals the event-by-event binding: a join binds, and a disconnect unbinds only a user currently bound to the departing socket |
| PresenceHistory.StepFollowsBinding | Server/index.js:79-160 | from a valid registry, one event moves a user's binding exactly as the event-by-event binding does: a join as the user binds it to the sender, a disconnect of the user's current socket unbinds it, and every other event leaves it |
| PresenceHistory.BindingIsLatestLiveJoin | Server/index.js:85-155 | the event-by-event binding is `s` exactly when the latest join as the user came from `s` and `s` has not disconnected since |
| PresenceHistory.RegistryReflectsLatestLiveJoin | Server/index.js:154-155 | after any history, the registry lists a user with socket `s` exactly when their latest join came from `s` and `s` has not disconnected since; the last join wins and a stale disconnect does not evict |
| PresenceHistory.OfferReachesCallee | Server/index.js:98-100 | after two users join from two different sockets, the first user's offer to the second goes to the second user's socket with the signal and caller id intact |
| Origins.TrimAll | Server/index.js:19 | every entry trimmed, one for one |
| Origins.AllowedOrigins | Server/index.js:18-20 | never empty and every entry trimmed; the single default origin when `client_url` is unset or empty; otherwise an origin is listed exactly when some comma-separated segment trims to it |
| Origins.ConfiguredOriginsRoundTrip | Server/index.js:18-20 | configuring clean origins joined by commas allows exactly those origins, in order |
| Origins.CheckOrigin | Server/index.js:36-67 | the verdict of both origin callbacks, the HTTP middleware's and the socket server's, which are identical: allowed exactly when the origin is absent or empty or equals a listed entry; a rejection carries "Not allowed by CORS" |
| Origins.PaddedOriginRejected | Server/index.js:37 | an origin with surrounding white space is rejected under every configuration |
| Origins.HttpGate | Server/index.js:28-46 | the origin check is skipped exactly when the URL contains `/socket.io`; otherwise the verdict is the origin callback's |
| Origins.SocketPathAnywhereSkipsCors | Server/index.js:30-33 | `/socket.io` anywhere in a URL, a query string included, skips the check whatever the origin |
| Strings.Lower | client/src/pages/dashboard/Dashboard.jsx:37 | same length; each ASCII capital becomes its lower-case letter and every other character is kept |
| Strings.LowerIdempotent | client/src/pages/dashboard/Dashboard.jsx:37 | lower-casing twice is lower-casing once |
| Strings.Includes | client/src/pages/dashboard/Dashboard.jsx:37 | `includes` holds exactly when `indexOf` finds the query; it always holds when the query is a prefix of the text and never when the query is longer than the text |
| Strings.IncludesAt | client/src/pages/dashboard/Dashboard.jsx:37 | `includes` holds exactly when the query is a prefix of some suffix of the text |
| Strings.IndexOf | client/src/pages/admin/Admin.jsx:173 | the position of the first occurrence of the pattern, with no occurrence before it; none exactly when there is no occurrence at all |
| Strings.ReplaceFirst | client/src/pages/admin/Admin.jsx:173 | the text unchanged without an occurrence; otherwise the first occurrence alone is replaced and the text around it is kept |
| Strings.Split | Server/index.js:19 | at least one part; no part contains the separator; joining the parts with the separator gives the text back |
| Strings.SplitJoin | Server/index.js:19 | splitting parts that do not contain the separator, once joined, gives those parts back |
| Strings.Trim | Server/index.js:19 | the result has no leading or trailing white space and is the text with only white space removed around it |
| Strings.TrimOfTrimmed | Server/index.js:19 | trimming text without surrounding white space changes nothing |
| Strings.TrimStartSkipsSpace | Server/middleware/isLogin.js:4 | white space followed by text that starts with a non-space character trims at the start to exactly that text |
| Strings.TrimEndKeepsPrefix | Server/middleware/isLogin.js:4 | a prefix that ends with a non-space character survives the end trim |
| Seqs.Filter | client/src/pages/dashboard/Dashboard.jsx:36 | the kept elements are an order-preserving subsequence of the input and are exactly those satisfying the predicate; each element satisfying the predicate is kept as many times as it occurs, and no other element is kept |
| Seqs.FilterLength | client/src/pages/admin/Admin.jsx:141 | the number of kept elements is the number of positions whose element satisfies the predicate |
| Seqs.FindIndex | Server/index.js:85 | the position of the first element satisfying the predicate; none exactly when no element does |
| Seqs.Find | client/src/pages/dashboard/Dashboard.jsx:49 | the first element satisfying the predicate; none exactly when no element does |
| Auth.SecondPiece | Server/middleware/isLogin.js:4 | `split("=")[1]` exists exactly when the segment holds an `=`, and it is the text between the first `=` and the second one (or the end) |
| Auth.HeaderToken | Server/middleware/isLogin.js:4 | a token exists exactly when some `;`-segment trims to text starting with `jwt=`, and it is the value of the first such segment |
| Auth.HeaderTokenOfSingleCookie | Server/middleware/isLogin.js:4 | for white space, then `jwt=`, then a value, the token is the value: leading white space is dropped, trailing white space is kept and an empty value stays empty |
| Auth.ExtractToken | Server/middleware/isLogin.js:4 | a truthy cookie is the token and the header is ignored; without one, a missing header throws; otherwise there is a token exactly when the header yields a non-empty one |
| Auth.IsLogin | Server/middleware/isLogin.js:3-22 | the request proceeds, with the looked-up account, exactly when a token was found, verified to a payload and resolved to an existing user; no token gives 401 "Unauthorized"; a missing header gives 500; a verification that throws gives 500; a falsy decoded payload gives 401 "Unauthorized"; a verified token whose user does not exist gives 401 "user not found"; a lookup that throws gives 500; any 401 carries "Unauthorized" or "user not found" |
| Auth.EmptyHeaderValueUnauthorized | Server/middleware/isLogin.js:4-7 | a header `jwt=` with an empty value is answered 401 "Unauthorized" |
| Auth.IsLoginAsWritten | Server/middleware/isLogin.js:8 | no request proceeds; every request carrying a token is answered 500 |
| Auth.AsWrittenRefusesValidSessions | Server/middleware/isLogin.js:8 | every request the intended middleware lets through is answered 500 by the code as written |
| Auth.AsWrittenRefusesCookieSession | Server/middleware/isLogin.js:4-8 | a concrete cookie session for an existing user proceeds under the intended middleware and gets a 500 under the code as written |
| Directory.FieldMatches | client/src/pages/dashboard/Dashboard.jsx:37 | a missing field never matches; a matching field is at least as long as the query; a field that starts with the query, ignoring case, matches |
| Directory.EmptyQueryMatchesPresentField | client/src/pages/dashboard/Dashboard.jsx:37 | the empty query matches a field exactly when the field is present |
| Directory.FieldMatchesIgnoresCase | client/src/pages/dashboard/Dashboard.jsx:37 | queries with the same lower-case form match the same fields |
| Directory.FieldMatchesNarrows | client/src/pages/dashboard/Dashboard.jsx:37 | a field that matches a longer query matches each of its prefixes |
| Dashboard.Matches | client/src/pages/dashboard/Dashboard.jsx:37-38 | a user matches only if it has a username or an email; the empty query matches exactly the users that have one |
| Dashboard.FilteredUsers | client/src/pages/dashboard/Dashboard.jsx:36-39 | an order-preserving subsequence of the users, holding exactly those whose username or email contains the query, ignoring case, each matching user as many times as it is listed |
| Dashboard.EmptyQueryKeepsNamedUsers | client/src/pages/dashboard/Dashboard.jsx:36-39 | with an empty query, exactly the users having a username or an email are kept, in order |
| Dashboard.QueryIgnoresCase | client/src/pages/dashboard/Dashboard.jsx:36-39 | queries differing only in ASCII letter case give the same list |
| Dashboard.LongerQueryNarrows | client/src/pages/dashboard/Dashboard.jsx:36-39 | appending to the query gives a subsequence of the previous list |
| Dashboard.IsOnlineUser | client/src/pages/dashboard/Dashboard.jsx:42-44 | true exactly when the id is present and listed as online |
| Dashboard.SelectUser | client/src/pages/dashboard/Dashboard.jsx:47-51 | the selection becomes the id; the modal shows the first filtered user with that id, and nothing exactly when the filter hides every user with that id; users, query and online list are unchanged |
| Dashboard.NobodyMarkedOnline | client/src/pages/dashboard/Dashboard.jsx:15 | no sequence of page actions fills the online list, so no user is ever marked online; this holds by construction, since no page action writes the list |
| Admin.Matches | client/src/pages/admin/Admin.jsx:94-96 | a user matches exactly when the dashboard's test matches or the full name contains the query, ignoring case; so only a user with a username, an email or a full name can match |
| Admin.FilteredUsers | client/src/pages/admin/Admin.jsx:93-97 | an order-preserving subsequence of the users, holding exactly those whose username, email or full name contains the query, ignoring case, each matching user as many times as it is listed |
| Admin.QueryIgnoresCase | client/src/pages/admin/Admin.jsx:93-97 | queries differing only in ASCII letter case give the same list |
| Admin.AdminFindsWhatDashboardFinds | client/src/pages/admin/Admin.jsx:93-97 | the dashboard's result for a query is a subsequence of the admin page's result |
| Admin.TotalShown | client/src/pages/admin/Admin.jsx:141 | the number of positions in the loaded list whose user matches the search; so never more than the number of users loaded, and zero exactly when no user matches |
| Admin.ApiOriginAsWritten | client/src/pages/admin/Admin.jsx:173 | the default server origin when the setting is unset, or when removing the first `/api` leaves nothing; otherwise the setting with its first `/api`, wherever it is, removed |
| Admin.ApiOriginAsWrittenCutsHostName | client/src/pages/admin/Admin.jsx:173 | for `https://api.example.com/api` the code as written yields `https:/.example.com/api`, while the intended reading yields `https://api.example.com` |
| Admin.ApiOrigin | client/src/pages/admin/Admin.jsx:173 | never empty; an unset setting, an empty one and `/api` alone give the default server origin; a setting ending in `/api` after other text loses exactly that suffix; a non-empty setting without a trailing `/api` is used as it stands |
| Admin.ApiOriginStripsApiPath | client/src/pages/admin/Admin.jsx:173 | a setting of the form `<origin>/api` yields `<origin>` |
| Admin.ProfileSrc | client/src/pages/admin/Admin.jsx:172-174 | a missing or empty picture becomes the default avatar; a picture under `/public/` is exactly the server origin followed by the path; any other picture is used as given |
| Admin.PublicPictureServedByApiHost | client/src/pages/admin/Admin.jsx:172-173 | a `/public/` picture on a server configured as `<origin>/api` is fetched from `<origin>` followed by the path |
| Admin.Heading | client/src/pages/admin/Admin.jsx:179 | the full name when it is non-empty, otherwise exactly the username, as it stands; the heading is non-empty exactly when one of them is |
| Admin.CardKey | client/src/pages/admin/Admin.jsx:165 | the id when it is non-empty, otherwise exactly the username, as it stands; the key is non-empty exactly when one of them is |

## Left out

- socket.io transport: `socket.join`, the `me` greeting, `pingTimeout` and the connection lifecycle are not modelled. Rooms and emissions are abstract target values. Who actually receives a room emission is not modelled.
- Concurrency: the event loop runs handlers one at a time, so each event is one atomic step.
- Throws: a handler that throws is marked `threw`, and `Replay` continues with the registry unchanged. In the server, a TypeError thrown in a listener (`Server/index.js:95,109,113,134,144`) is not caught, and no `uncaughtException` handler is installed, so the Node process ends and `onlineUsers` is lost. The history theorems therefore describe the server only for histories in which no handler throws.
- Strings: Dafny strings are sequences of Unicode scalar values, while JavaScript strings are sequences of UTF-16 code units. A lone surrogate cannot be represented, and lengths and indices count scalar values rather than code units. For well-formed text no modelled result changes: every character the model searches for or cuts at (`;`, `=`, `,`, `/`, the letters of `jwt`, `/api` and `/socket.io`, and the white-space characters) is a single UTF-16 code unit.
- Presence.Step: JavaScript's `===` on payload values is modelled as equality of `Js.Value`. NaN and `-0` are not represented, and objects compare by an abstract reference.
- Auth.IsLogin: `jwt.verify` and `User.findById` are foreign code (cryptography and the database). They enter as parameters. The secret and the password projection are not modelled.
- Auth.ExtractToken: the cookie is taken as cookie-parser delivers it. Cookie-parser's decoding and its JSON cookies are not modelled.
- Auth.IsLogin: the response body on a 500 (the serialised error) and the console logging are not modelled.
- Strings.Lower: `toLowerCase` folds ASCII letters only. Unicode case mapping is not modelled.
- Directory.FieldMatches, Admin.ProfileSrc, Admin.Heading, Admin.CardKey: user fields are modelled as strings or missing (`Option<string>`). A field of another type is not modelled: a number or an object, on which `toLowerCase` or `startsWith` (`client/src/pages/admin/Admin.jsx:172`) would throw, or whose truthiness differs from a string's.
- The Express and Mongoose controllers, the routers, the database connection and cookie issuing are thin wrappers over code that is not part of this model.
- Client routing, JSX rendering, React effects, API calls, toasts, confirmations and logout are not modelled. The dashboard state is reduced to the fields the modelled code reads and writes.
- The client-side call state machine is not modelled, because its negotiation code is not part of this model.

## Findings

| source | as written | input that shows it | evidently intended | confidence | as-written member | corrected member |
|---|---|---|---|---|---|---|
| Server/middleware/isLogin.js:8 | `jwt.verify` is called, but `jwt` is never imported, so evaluating it throws a ReferenceError that the catch block turns into a 500 | a request with cookie `jwt=abc` for an existing user | the token is verified and the request proceeds with `req.user` set | not executed | Auth.IsLoginAsWritten, Auth.AsWrittenRefusesValidSessions | Auth.IsLogin |
| client/src/pages/admin/Admin.jsx:173 | `replace('/api', '')` removes the first `/api` anywhere in the setting | `VITE_API_BASE_URL = https://api.example.com/api` gives `https:/.example.com/api` | strip the trailing `/api` path and keep the host | not executed | Admin.ApiOriginAsWritten, Admin.ApiOriginAsWrittenCutsHostName | Admin.ApiOrigin, Admin.ApiOriginStripsApiPath |

=== FILE: admin.dfy ===
/** The admin page's user grid: the search over username, email and full
    name, the count it shows, and how each card picks its picture, heading
    and key. */
module Admin {
  import opened Js
  import opened Strings
  import opened Directory
  import Seqs
  import Dashboard

  /** The admin filter predicate: the query occurs, ignoring ASCII case, in
      the username, the email or the full name. It widens the dashboard's
      predicate by the full name alone. */
  predicate Matches(u: DirUser, query: string): (b: bool)
    ensures b <==> Dashboard.Matches(u, query) || FieldMatches(u.fullName, query)
    ensures b ==> u.username.Some? || u.email.Some? || u.fullName.Some?
  {
    FieldMatches(u.username, query) || FieldMatches(u.email, query) || FieldMatches(u.fullName, query)
  }

  /** `filteredUsers`: the users that match, in list order. */
  function FilteredUsers(users: seq<DirUser>, query: string): (r: seq<DirUser>)
    ensures Seqs.IsSubsequence(r, users)
    ensures forall u :: u in r ==> Matches(u, query)
    ensures forall u :: u in users && Matches(u, query) ==> u in r
    ensures forall u :: u in users ==> multiset(r)[u] == if Matches(u, query) then multiset(users)[u] else 0
  {
    Seqs.Filter(users, (u: DirUser) => Matches(u, query))
  }

  /** The "Total Users" figure: the number of positions in the loaded list
      whose user matches the search, so never more than the number loaded. */
  function TotalShown(users: seq<DirUser>, query: string): (n: nat)
    ensures n == |set i: nat | i < |users| && Matches(users[i], query)|
    ensures n <= |users|
    ensures n == 0 <==> forall u :: u in users ==> !Matches(u, query)
  {
    ShownCount(users, query);
    |FilteredUsers(users, query)|
  }

  lemma ShownCount(users: seq<DirUser>, query: string)
    ensures var n := |FilteredUsers(users, query)|;
            && n == |set i: nat | i < |users| && Matches(users[i], query)|
            && n <= |users|
            && (n == 0 <==> forall u :: u in users ==> !Matches(u, query))
  {
    var keep := (u: DirUser) => Matches(u, query);
    var shown := FilteredUsers(users, query);
    assert shown != [] ==> shown[0] in shown;
    Seqs.FilterLength(users, keep);
    assert Seqs.Positions(users, keep) == set i: nat | i < |users| && Matches(users[i], query);
  }

  /** Changing the ASCII letter case of the query changes nothing. */
  lemma QueryIgnoresCase(users: seq<DirUser>, q1: string, q2: string)
    requires Lower(q1) == Lower(q2)
    ensures FilteredUsers(users, q1) == FilteredUsers(users, q2)
  {
    Seqs.FilterSame(users, (u: DirUser) => Matches(u, q1), (u: DirUser) => Matches(u, q2));
  }

  /** Every user the dashboard search finds, the admin search finds too,
      in the same relative order. */
  lemma AdminFindsWhatDashboardFinds(users: seq<DirUser>, q: string)
    ensures Seqs.IsSubsequence(Dashboard.FilteredUsers(users, q), FilteredUsers(users, q))
  {
    Seqs.FilterStronger(users, (u: DirUser) => Dashboard.Matches(u, q), (u: DirUser) => Matches(u, q));
  }

  // ------------------------------------------------------------- pictures

  const DefaultApiOrigin: string := "http://localhost:5000"
  const DefaultAvatar: string := "/default-avatar.png"
  const PublicPrefix: string := "/public/"
  const ApiPath: string := "/api"

  /** The server origin as written:
      `VITE_API_BASE_URL?.replace('/api', '') || 'http://localhost:5000'`.
      The first `/api` anywhere in the setting is removed, wherever it is. */
  function ApiOriginAsWritten(env: Option<string>): (r: string)
    ensures r != ""
    ensures env.None? ==> r == DefaultApiOrigin
    ensures env.Some? && IndexOf(env.value, ApiPath).None? ==>
              r == (if env.value == "" then DefaultApiOrigin else env.value)
    ensures env.Some? && IndexOf(env.value, ApiPath).Some? ==>
              var i := IndexOf(env.value, ApiPath).value;
              var cut := env.value[..i] + env.value[i + |ApiPath|..];
              r == (if cut == "" then DefaultApiOrigin else cut)
  {
    var stripped := if env.Some? then ReplaceFirst(env.value, ApiPath, "") else "";
    if stripped != "" then stripped else DefaultApiOrigin
  }

  /** The server origin as evidently intended: the setting with its
      trailing `/api` path removed, falling back to the default when the
      setting is unset or nothing is left. */
  function ApiOrigin(env: Option<string>): (r: string)
    ensures r != ""
    ensures env.None? ==> r == DefaultApiOrigin
    ensures env.Some? && (env.value == "" || env.value == ApiPath) ==> r == DefaultApiOrigin
    ensures env.Some? && env.value != "" && !(|env.value| >= |ApiPath| && env.value[|env.value| - |ApiPath|..] == ApiPath)
            ==> r == env.value
    ensures env.Some? && |env.value| > |ApiPath| && env.value[|env.value| - |ApiPath|..] == ApiPath
            ==> r == env.value[..|env.value| - |ApiPath|]
  {
    if env.None? then DefaultApiOrigin
    else
      var e := env.value;
      var stripped := if |e| >= |ApiPath| && e[|e| - |ApiPath|..] == ApiPath then e[..|e| - |ApiPath|] else e;
      if stripped != "" then stripped else DefaultApiOrigin
  }

  /** Configured as `<origin>/api`, the intended reading yields `<origin>`. */
  lemma ApiOriginStripsApiPath(origin: string)
    requires origin != ""
    ensures ApiOrigin(Some(origin + ApiPath)) == origin
  {
    var e := origin + ApiPath;
    assert e[|e| - |ApiPath|..] == ApiPath;
    assert e[..|e| - |ApiPath|] == origin;
  }

  /** With an API host whose name starts with `api`, the code as written
      cuts into the host name instead of removing the path, while the
      intended reading keeps the host. */
  lemma ApiOriginAsWrittenCutsHostName()
    ensures ApiOriginAsWritten(Some("https://api.example.com/api")) == "https:/.example.com/api"
    ensures ApiOrigin(Some("https://api.example.com/api")) == "https://api.example.com"
  {
    var e := "https://api.example.com/api";
    FirstApiPathInHostName(e);
    CutAtHostName(e);
    HostThenApiPath(e);
    ApiOriginStripsApiPath("https://api.example.com");
  }

  /* The three lemmas below are facts about the example URL alone. Each is
     stated on its own so that it is checked without the unfolded
     definitions of `ApiOriginAsWritten` and `ApiOrigin` in scope. */

  /** The first `/api` of the example URL is the `/api` inside its host
      name, at offset 7, not the path at its end. */
  lemma FirstApiPathInHostName(e: string)
    requires e == "https://api.example.com/api"
    ensures IndexOf(e, ApiPath) == Some(7)
  {
    assert ApiPath <= e[7..];
    forall j | 0 <= j < 7 ensures !(ApiPath <= e[j..]) {
      assert e[j..][0] == e[j] && e[j..][1] == e[j + 1];
      if j < 6 {
        assert e[j] in "https:";
      } else {
        assert e[j + 1] == '/';
      }
    }
    IndexOfIs(e, ApiPath, 7);
  }

  /** An occurrence of p at k with none before it is the one IndexOf finds. */
  lemma IndexOfIs(s: string, p: string, k: nat)
    requires k <= |s| && p <= s[k..]
    requires forall j :: 0 <= j < k ==> !(p <= s[j..])
    ensures IndexOf(s, p) == Some(k)
  {
  }

  /** The example URL is its host followed by the `/api` path. */
  lemma HostThenApiPath(e: string)
    requires e == "https://api.example.com/api"
    ensures "https://api.example.com" + ApiPath == e
  {
  }

  /** Cutting the four characters at offset 7 out of the example URL
      leaves `https:/.example.com/api`. */
  lemma CutAtHostName(e: string)
    requires e == "https://api.example.com/api"
    ensures e[..7] + e[11..] == "https:/.example.com/api"
  {
  }

  /** The card image `src`: a picture under `/public/` is served by the API
      server, any other non-empty picture is used as given, and a missing or
      empty one becomes the default avatar. */
  function ProfileSrc(picture: Option<string>, apiOrigin: string): (r: string)
    ensures !TruthyText(picture) ==> r == DefaultAvatar
    ensures TruthyText(picture) ==> |picture.value| <= |r| && r[|r| - |picture.value|..] == picture.value
    ensures TruthyText(picture) && !(PublicPrefix <= picture.value) ==> r == picture.value
    ensures picture.Some? && PublicPrefix <= picture.value ==>
              |r| == |apiOrigin| + |picture.value| && r[..|apiOrigin|] == apiOrigin
  {
    if picture.Some? && PublicPrefix <= picture.value then apiOrigin + picture.value
    else if TruthyText(picture) then picture.value
    else DefaultAvatar
  }

  /** A picture stored under `/public/` on a server configured as
      `<origin>/api` is fetched from `<origin>/public/...`. */
  lemma PublicPictureServedByApiHost(origin: string, path: string)
    requires origin != ""
    ensures ProfileSrc(Some(PublicPrefix + path), ApiOrigin(Some(origin + ApiPath))) == origin + PublicPrefix + path
  {
    ApiOriginStripsApiPath(origin);
    assert PublicPrefix <= PublicPrefix + path;
  }

  // ------------------------------------------------------ heading and key

  /** The card heading `fullName || username`: the full name when it is
      non-empty, otherwise the username as it stands. */
  function Heading(u: DirUser): (r: Option<string>)
    ensures r == u.fullName || r == u.username
    ensures TruthyText(r) <==> TruthyText(u.fullName) || TruthyText(u.username)
    ensures TruthyText(u.fullName) ==> r == u.fullName
    ensures !TruthyText(u.fullName) ==> r == u.username
  {
    if TruthyText(u.fullName) then u.fullName else u.username
  }

  /** The card key `_id || username`. */
  function CardKey(u: DirUser): (r: Option<string>)
    ensures r == u.id || r == u.username
    ensures TruthyText(r) <==> TruthyText(u.id) || TruthyText(u.username)
    ensures TruthyText(u.id) ==> r == u.id
    ensures !TruthyText(u.id) ==> r == u.username
  {
    if TruthyText(u.id) then u.id else u.username
  }
}

=== FILE: auth.dfy ===
/** The `isLogin` middleware: where the session token is read from, and how
    the request is answered. Signature verification and the user lookup are
    outside the model and enter as parameters. */
module Auth {
  import opened Js
  import opened Strings
  import Seqs

  /** What the middleware reads from a request: the parsed `jwt` cookie and
      the raw `authorization` header. */
  datatype Request = Request(jwtCookie: Option<string>, authorization: Option<string>)

  /** A `;`-separated header segment that names the session cookie: its
      trimmed text starts with `jwt=` (case-sensitive). */
  predicate IsJwtSegment(seg: string) {
    "jwt=" <= Trim(seg)
  }

  /** t is the text between the first and the second `=` of seg (or the end
      of seg when there is no second `=`). */
  ghost predicate ValueOf(seg: string, t: string) {
    exists i :: 0 <= i < |seg| && seg[i] == '=' && '=' !in seg[..i] && ValueAfter(seg, i + 1, t)
  }

  /** t starts at offset k of seg, holds no `=`, and is followed by the end
      of seg or by an `=`. */
  ghost predicate ValueAfter(seg: string, k: nat, t: string) {
    && k + |t| <= |seg| && seg[k..k + |t|] == t && '=' !in t
    && (k + |t| == |seg| || seg[k + |t|] == '=')
  }

  /** `seg.split("=")[1]`: undefined when seg holds no `=`. */
  function SecondPiece(seg: string): (r: Option<string>)
    ensures r.Some? <==> '=' in seg
    ensures r.Some? ==> ValueOf(seg, r.value)
  {
    var parts := Split(seg, '=');
    SplitPieces(seg, parts);
    if |parts| >= 2 then Some(parts[1]) else None
  }

  lemma SplitPieces(seg: string, parts: seq<string>)
    requires parts == Split(seg, '=')
    ensures |parts| >= 2 <==> '=' in seg
    ensures |parts| >= 2 ==> ValueOf(seg, parts[1])
  {
    if |parts| >= 2 {
      var rest := if |parts| == 2 then [] else "=" + Join(parts[2..], '=');
      assert rest == [] || rest[0] == '=';
      JoinUnfold(parts, '=');
      assert seg == parts[0] + "=" + parts[1] + rest;
      assert '=' !in parts[0] && '=' !in parts[1];
      assert seg[|parts[0]|] == '=';
      ValueOfShape(seg, parts[0], parts[1], rest);
    } else {
      assert seg == parts[0];
    }
  }

  lemma ValueOfShape(seg: string, pre: string, t: string, rest: string)
    requires seg == pre + "=" + t + rest
    requires '=' !in pre && '=' !in t && (rest == [] || rest[0] == '=')
    ensures ValueOf(seg, t)
  {
    var i := |pre|;
    assert seg[..i] == pre && seg[i] == '=';
    assert seg[i + 1..i + 1 + |t|] == t;
    assert rest != [] ==> seg[i + 1 + |t|] == rest[0];
    assert ValueAfter(seg, i + 1, t);
  }

  /** A segment that names the session cookie holds an `=`. */
  lemma JwtSegmentHasEquals(seg: string)
    requires IsJwtSegment(seg)
    ensures '=' in seg
  {
    var r := Trim(seg);
    var i :| SpaceAround(seg, i, r);
    assert r[..4] == "jwt=";
    assert seg[i + 3] == r[3];
  }

  /** The header branch of the token expression:
      `header.split(";").find(c => c.trim().startsWith("jwt="))?.split("=")[1]`.
      The token is the value of the first segment that names the session
      cookie; there is one exactly when some segment names it. */
  function HeaderToken(header: string): (r: Option<string>)
    ensures r.Some? <==> exists seg :: seg in Split(header, ';') && IsJwtSegment(seg)
    ensures r.Some? ==>
              var segs := Split(header, ';');
              exists k :: 0 <= k < |segs| && IsJwtSegment(segs[k])
                          && (forall j :: 0 <= j < k ==> !IsJwtSegment(segs[j]))
                          && ValueOf(segs[k], r.value)
  {
    var segs := Split(header, ';');
    match Seqs.FindIndex(segs, IsJwtSegment)
    case None => None
    case Some(k) =>
      assert segs[k] in segs;
      JwtSegmentHasEquals(segs[k]);
      SecondPiece(segs[k])
  }

  /** Leading space before `jwt=` is dropped, trailing space after the value
      is kept (only the prefix test trims), and an empty value stays empty. */
  lemma HeaderTokenOfSingleCookie(w: string, v: string)
    requires AllSpace(w)
    requires ';' !in v && '=' !in v
    ensures HeaderToken(w + "jwt=" + v) == Some(v)
  {
    var h := w + "jwt=" + v;
    SpaceIsNotPunctuation(w);
    assert ';' !in h;
    assert Split(h, ';') == [h];
    JwtSegmentAfterSpace(w, v);
    SecondPieceAfterKey(w, v);
    assert Seqs.FindIndex([h], IsJwtSegment) == Some(0);
  }

  lemma SpaceIsNotPunctuation(w: string)
    requires AllSpace(w)
    ensures ';' !in w && '=' !in w
  {
    forall i | 0 <= i < |w| ensures w[i] != ';' && w[i] != '=' {
      assert IsSpace(w[i]);
    }
  }

  lemma JwtSegmentAfterSpace(w: string, v: string)
    requires AllSpace(w)
    ensures IsJwtSegment(w + "jwt=" + v)
  {
    var x := "jwt=" + v;
    assert w + "jwt=" + v == w + x;
    TrimStartSkipsSpace(w, x);
    TrimEndKeepsPrefix("jwt=", x);
  }

  lemma SecondPieceAfterKey(w: string, v: string)
    requires AllSpace(w) && '=' !in v
    ensures SecondPiece(w + "jwt=" + v) == Some(v)
  {
    SpaceIsNotPunctuation(w);
    var key := w + "jwt";
    assert '=' !in key;
    JoinPair(key, v, '=');
    assert (w + "jwt") + "=" + v == w + "jwt=" + v by {
      assert "jwt" + "=" == "jwt=";
    }
    SplitJoin([key, v], '=');
  }

  /** Outcome of the token expression. `HeaderMissing` is the TypeError
      thrown by calling `.split` on an absent header. */
  datatype Extracted = Token(value: string) | NoToken | HeaderMissing

  /** `req.cookies.jwt || req.headers.authorization.split(";")...`: a
      truthy cookie wins and the header is not read; otherwise the header
      must be present, and an absent or empty value means no token. */
  function ExtractToken(req: Request): (x: Extracted)
    ensures x.Token? ==> x.value != ""
    ensures TruthyText(req.jwtCookie) ==> x == Token(req.jwtCookie.value)
    ensures x.HeaderMissing? <==> !TruthyText(req.jwtCookie) && req.authorization.None?
    ensures !TruthyText(req.jwtCookie) && req.authorization.Some? ==>
              (x.Token? <==> HeaderToken(req.authorization.value).Some? && HeaderToken(req.authorization.value).value != "")
    ensures !TruthyText(req.jwtCookie) && x.Token? ==> HeaderToken(req.authorization.value) == Some(x.value)
  {
    if TruthyText(req.jwtCookie) then Token(req.jwtCookie.value)
    else if req.authorization.None? then HeaderMissing
    else
      match HeaderToken(req.authorization.value)
      case Some(t) => if t != "" then Token(t) else NoToken
      case None => NoToken
  }

  /** What `jwt.verify` yields: it throws on a bad token, or returns the
      decoded payload, which is falsy or carries a `userId`. */
  datatype Verification = VerifyThrows | DecodedFalsy | DecodedClaims(userId: Value)

  /** The account record the lookup returns (password excluded). */
  datatype Account = Account(ref: nat)

  /** What `User.findById(...)` yields. */
  datatype Lookup = LookupThrows | NoSuchUser | FoundUser(account: Account)

  /** How the middleware answers: a 401 with its message, a 500 from the
      catch block, or `req.user` set and `next()` called. */
  datatype Response = Unauthorized(message: string) | ServerError | Proceed(user: Account)

  /** `isLogin` with a working `jwt.verify`. `next()` is reached exactly
      when a token was found, verified to a truthy payload, and the payload's
      user exists; every exception ends in a 500. */
  function IsLogin(req: Request, verify: string -> Verification, findById: Value -> Lookup): (r: Response)
    ensures r.Proceed? ==>
              && ExtractToken(req).Token?
              && verify(ExtractToken(req).value).DecodedClaims?
              && findById(verify(ExtractToken(req).value).userId) == FoundUser(r.user)
    ensures (&& ExtractToken(req).Token?
             && verify(ExtractToken(req).value).DecodedClaims?
             && findById(verify(ExtractToken(req).value).userId).FoundUser?) ==> r.Proceed?
    ensures ExtractToken(req).NoToken? ==> r == Unauthorized("Unauthorized")
    ensures ExtractToken(req).HeaderMissing? ==> r == ServerError
    ensures ExtractToken(req).Token? && verify(ExtractToken(req).value).VerifyThrows? ==> r == ServerError
    ensures ExtractToken(req).Token? && verify(ExtractToken(req).value).DecodedFalsy? ==> r == Unauthorized("Unauthorized")
    ensures (&& ExtractToken(req).Token?
             && verify(ExtractToken(req).value).DecodedClaims?
             && findById(verify(ExtractToken(req).value).userId).NoSuchUser?) ==> r == Unauthorized("user not found")
    ensures (&& ExtractToken(req).Token?
             && verify(ExtractToken(req).value).DecodedClaims?
             && findById(verify(ExtractToken(req).value).userId).LookupThrows?) ==> r == ServerError
    ensures r.Unauthorized? ==> r.message == "Unauthorized" || r.message == "user not found"
  {
    match ExtractToken(req)
    case HeaderMissing => ServerError
    case NoToken => Unauthorized("Unauthorized")
    case Token(t) =>
      match verify(t)
      case VerifyThrows => ServerError
      case DecodedFalsy => Unauthorized("Unauthorized")
      case DecodedClaims(uid) =>
        match findById(uid)
        case LookupThrows => ServerError
        case NoSuchUser => Unauthorized("user not found")
        case FoundUser(a) => Proceed(a)
  }

  /** `isLogin` as written: `jwt` is used without being imported, so
      evaluating `jwt.verify` throws a ReferenceError that the catch block
      turns into a 500. No request ever reaches `next()`. */
  function IsLoginAsWritten(req: Request): (r: Response)
    ensures !r.Proceed?
    ensures ExtractToken(req).Token? ==> r == ServerError
    ensures ExtractToken(req).NoToken? ==> r == Unauthorized("Unauthorized")
  {
    match ExtractToken(req)
    case HeaderMissing => ServerError
    case NoToken => Unauthorized("Unauthorized")
    case Token(_) => ServerError
  }

  /** Every request the intended middleware lets through, the code as
      written answers with a 500: a session cookie that verifies and names
      an existing user is refused. */
  lemma AsWrittenRefusesValidSessions(req: Request, verify: string -> Verification, findById: Value -> Lookup)
    requires IsLogin(req, verify, findById).Proceed?
    ensures IsLoginAsWritten(req) == ServerError
  {
  }

  /** A concrete instance: cookie `jwt=abc` for an existing user. */
  lemma AsWrittenRefusesCookieSession()
    ensures var req := Request(Some("abc"), None);
            && IsLogin(req, _ => DecodedClaims(Str("u1")), _ => FoundUser(Account(1))) == Proceed(Account(1))
            && IsLoginAsWritten(req) == ServerError
  {
  }

  /** `authorization: jwt=` (an empty value) is answered with a 401. */
  lemma EmptyHeaderValueUnauthorized(w: string, verify: string -> Verification, findById: Value -> Lookup)
    requires AllSpace(w)
    ensures IsLogin(Request(None, Some(w + "jwt=")), verify, findById) == Unauthorized("Unauthorized")
  {
    HeaderTokenOfSingleCookie(w, "");
    assert w + "jwt=" + "" == w + "jwt=";
  }
}

=== FILE: dashboard.dfy ===
/** The dashboard page's user list: the search over username and email,
    the online marker and the selection of a user. */
module Dashboard {
  import opened Js
  import opened Strings
  import opened Directory
  import Seqs

  /** The dashboard's filter predicate: the query occurs, ignoring ASCII
      case, in the username or in the email. A user with neither field never
      matches, and the empty query matches every user that has one. */
  predicate Matches(u: DirUser, query: string): (b: bool)
    ensures b ==> u.username.Some? || u.email.Some?
    ensures query == "" ==> (b <==> u.username.Some? || u.email.Some?)
  {
    EmptyQueryMatchesPresentField(u.username);
    EmptyQueryMatchesPresentField(u.email);
    FieldMatches(u.username, query) || FieldMatches(u.email, query)
  }

  /** `filteredUsers`: the users that match, in list order. */
  function FilteredUsers(users: seq<DirUser>, query: string): (r: seq<DirUser>)
    ensures Seqs.IsSubsequence(r, users)
    ensures forall u :: u in r ==> Matches(u, query)
    ensures forall u :: u in users && Matches(u, query) ==> u in r
    ensures forall u :: u in users ==> multiset(r)[u] == if Matches(u, query) then multiset(users)[u] else 0
  {
    Seqs.Filter(users, (u: DirUser) => Matches(u, query))
  }

  /** With an empty query the list keeps exactly the users that have a
      username or an email, in order. */
  lemma EmptyQueryKeepsNamedUsers(users: seq<DirUser>)
    ensures FilteredUsers(users, "") == Seqs.Filter(users, (u: DirUser) => u.username.Some? || u.email.Some?)
  {
    Seqs.FilterSame(users, (u: DirUser) => Matches(u, ""), (u: DirUser) => u.username.Some? || u.email.Some?);
  }

  /** Changing the ASCII letter case of the query changes nothing. */
  lemma QueryIgnoresCase(users: seq<DirUser>, q1: string, q2: string)
    requires Lower(q1) == Lower(q2)
    ensures FilteredUsers(users, q1) == FilteredUsers(users, q2)
  {
    Seqs.FilterSame(users, (u: DirUser) => Matches(u, q1), (u: DirUser) => Matches(u, q2));
  }

  /** Typing more characters only removes users from the list: the new
      list is a subsequence of the old one. */
  lemma LongerQueryNarrows(users: seq<DirUser>, q: string, e: string)
    ensures Seqs.IsSubsequence(FilteredUsers(users, q + e), FilteredUsers(users, q))
  {
    forall u | u in users && Matches(u, q + e) ensures Matches(u, q) {
      if FieldMatches(u.username, q + e) {
        FieldMatchesNarrows(u.username, q, e);
      } else {
        FieldMatchesNarrows(u.email, q, e);
      }
    }
    Seqs.FilterStronger(users, (u: DirUser) => Matches(u, q + e), (u: DirUser) => Matches(u, q));
  }

  /** `isOnlineUser(userId)`: the id is listed in `userOnline`. */
  function IsOnlineUser(online: seq<string>, id: Option<string>): (r: bool)
    ensures r <==> exists k :: 0 <= k < |online| && Some(online[k]) == id
  {
    id.Some? && id.value in online
  }

  /** The page state the modelled code reads and writes. */
  datatype State = State(
    users: seq<DirUser>, query: string, selected: Option<string>,
    online: seq<string>, modal: Option<DirUser>)

  /** The state on mount: nothing loaded, nothing typed, nothing selected. */
  const Initial: State := State([], "", None, [], None)

  /** What happens on the page: the user list arrives, the search box
      changes, a user in the list is clicked. */
  datatype Action = UsersLoaded(users: seq<DirUser>) | QueryTyped(query: string) | UserClicked(id: Option<string>)

  /** `handelSelectedUser(id)`: records the selection and shows the first
      filtered user with that `_id`; none when the filter hides that user. */
  function SelectUser(st: State, id: Option<string>): (r: State)
    ensures r.selected == id
    ensures r.users == st.users && r.query == st.query && r.online == st.online
    ensures r.modal.Some? ==> r.modal.value in st.users && Matches(r.modal.value, st.query) && r.modal.value.id == id
    ensures r.modal.None? <==> forall u :: u in st.users && Matches(u, st.query) ==> u.id != id
    ensures r.modal.Some? ==>
              var shown := FilteredUsers(st.users, st.query);
              exists i :: 0 <= i < |shown| && shown[i] == r.modal.value && forall j :: 0 <= j < i ==> shown[j].id != id
  {
    var shown := FilteredUsers(st.users, st.query);
    st.(selected := id, modal := Seqs.Find(shown, (u: DirUser) => u.id == id))
  }

  function Apply(st: State, a: Action): State {
    match a
    case UsersLoaded(users) => st.(users := users)
    case QueryTyped(q) => st.(query := q)
    case UserClicked(id) => SelectUser(st, id)
  }

  /** The state after the given actions, starting on mount. */
  function Run(actions: seq<Action>): State
    decreases |actions|
  {
    if actions == [] then Initial
    else Apply(Run(actions[..|actions| - 1]), actions[|actions| - 1])
  }

  /** Nothing on the page ever fills `userOnline`, so no user is ever
      marked online. This holds by construction rather than by an
      invariant: `setUserOnline` is never called, so no `Action` updates
      `online`, and the run keeps the initial empty list. */
  lemma {:induction false} NobodyMarkedOnline(actions: seq<Action>, id: Option<string>)
    ensures Run(actions).online == []
    ensures !IsOnlineUser(Run(actions).online, id)
    decreases |actions|
  {
    if actions != [] {
      NobodyMarkedOnline(actions[..|actions| - 1], id);
    }
  }
}

=== FILE: directory.dfy ===
/** The user records the client pages list, and the case-insensitive
    substring test their search boxes apply to one field. */
module Directory {
  import opened Js
  import opened Strings

  /** A user record as the listing endpoints deliver it; a field the record
      lacks is `None`. */
  datatype DirUser = DirUser(
    id: Option<string>, username: Option<string>, email: Option<string>,
    fullName: Option<string>, profilePicture: Option<string>)

  /** `field?.toLowerCase().includes(query.toLowerCase())`: a missing field
      never matches, and a present one only when it is at least as long as
      the query; a field that starts with the query, ignoring case, always
      matches. */
  predicate FieldMatches(field: Option<string>, query: string): (b: bool)
    ensures b ==> field.Some? && |query| <= |field.value|
    ensures field.Some? && Lower(query) <= Lower(field.value) ==> b
  {
    field.Some? && Includes(Lower(field.value), Lower(query))
  }

  /** The empty query matches every present field, even an empty one. */
  lemma EmptyQueryMatchesPresentField(field: Option<string>)
    ensures FieldMatches(field, "") <==> field.Some?
  {
  }

  /** Queries that lower-case alike match alike. */
  lemma FieldMatchesIgnoresCase(field: Option<string>, q1: string, q2: string)
    requires Lower(q1) == Lower(q2)
    ensures FieldMatches(field, q1) == FieldMatches(field, q2)
  {
  }

  /** Typing more characters can only turn a match into a miss. */
  lemma FieldMatchesNarrows(field: Option<string>, q: string, e: string)
    requires FieldMatches(field, q + e)
    ensures FieldMatches(field, q)
  {
    LowerAppend(q, e);
    IncludesPrefixOf(Lower(field.value), Lower(q), Lower(e));
  }
}

=== FILE: history.dfy ===
/** Histories of socket events, replayed from the empty registry the server
    starts with, and what the registry says about a user after any history:
    the user is bound to the socket of their latest join unless that socket
    has disconnected since. */
module PresenceHistory {
  import opened Js
  import opened Presence

  /** An event together with the socket that sent it. */
  datatype Incoming = Incoming(sender: SocketId, event: Event)

  /** The registry after handling `trace` in order, starting from `[]`.
      Every reachable registry satisfies the invariant. */
  function Replay(trace: seq<Incoming>): (reg: Registry)
    ensures Valid(reg)
    decreases |trace|
  {
    if trace == [] then []
    else
      var last := trace[|trace| - 1];
      Step(Replay(trace[..|trace| - 1]), last.sender, last.event).registry
  }

  /** The event joins as user `u`. */
  predicate JoinsAs(ev: Event, u: Value) {
    ev.Join? && ValidJoin(ev.user) && ev.user.value.id == u
  }

  /** Position k of the trace is a join as `u` that no later join as `u`
      supersedes. */
  ghost predicate LatestJoin(trace: seq<Incoming>, k: int, u: Value) {
    && 0 <= k < |trace|
    && JoinsAs(trace[k].event, u)
    && forall m :: k < m < |trace| ==> !JoinsAs(trace[m].event, u)
  }

  /** Socket s disconnected somewhere after position k. */
  ghost predicate DisconnectedAfter(trace: seq<Incoming>, k: nat, s: SocketId) {
    exists m :: k < m < |trace| && trace[m] == Incoming(s, Disconnect)
  }

  /** The binding of `u` the history implies, computed event by event. */
  function Binding(trace: seq<Incoming>, u: Value): Option<SocketId>
    decreases |trace|
  {
    if trace == [] then None
    else
      var before := Binding(trace[..|trace| - 1], u);
      var last := trace[|trace| - 1];
      if JoinsAs(last.event, u) then Some(last.sender)
      else if last.event.Disconnect? && before == Some(last.sender) then None
      else before
  }

  /** The registry's binding of every user follows the history: the last
      join wins, and a disconnect only unbinds users whose current socket
      is the departing one. */
  lemma {:induction false} ReplayFollowsBinding(trace: seq<Incoming>, u: Value)
    ensures SocketOf(Replay(trace), u) == Binding(trace, u)
    decreases |trace|
  {
    if trace != [] {
      var prefix := trace[..|trace| - 1];
      var last := trace[|trace| - 1];
      ReplayFollowsBinding(prefix, u);
      StepFollowsBinding(Replay(prefix), last, u);
    }
  }

  /** One event moves the registry's binding of `u` as `Binding` does. */
  lemma StepFollowsBinding(reg: Registry, last: Incoming, u: Value)
    requires Valid(reg)
    ensures var after := SocketOf(Step(reg, last.sender, last.event).registry, u);
            if JoinsAs(last.event, u) then after == Some(last.sender)
            else if last.event.Disconnect? && SocketOf(reg, u) == Some(last.sender) then after == None
            else after == SocketOf(reg, u)
  {
    match last.event
    case Join(user) =>
      if ValidJoin(user) && user.value.id != u {
        assert SocketOf(OnJoin(reg, last.sender, user).registry, u) == SocketOf(reg, u);
      }
    case Disconnect =>
      assert UniqueIds(reg);
    case _ =>
  }

  /** Position k holds a join as `u` that is still in force with socket s. */
  ghost predicate LiveJoin(trace: seq<Incoming>, k: int, u: Value, s: SocketId) {
    LatestJoin(trace, k, u) && trace[k].sender == s && !DisconnectedAfter(trace, k, s)
  }

  /** `Binding` agrees with the declarative reading of the history. */
  lemma {:induction false} BindingIsLatestLiveJoin(trace: seq<Incoming>, u: Value, s: SocketId)
    ensures Binding(trace, u) == Some(s) <==> exists k :: LiveJoin(trace, k, u, s)
    decreases |trace|
  {
    if trace != [] {
      var n := |trace| - 1;
      var prefix := trace[..n];
      var last := trace[n];
      BindingIsLatestLiveJoin(prefix, u, s);
      if JoinsAs(last.event, u) {
        JoinedLast(trace, u, s);
      } else {
        NotJoinedLast(trace, u, s);
      }
    }
  }

  /** When the last event joins as `u`, it is the only join in force. */
  lemma JoinedLast(trace: seq<Incoming>, u: Value, s: SocketId)
    requires trace != [] && JoinsAs(trace[|trace| - 1].event, u)
    ensures (exists k :: LiveJoin(trace, k, u, s)) <==> trace[|trace| - 1].sender == s
  {
    var n := |trace| - 1;
    assert LatestJoin(trace, n, u);
    assert !DisconnectedAfter(trace, n, s);
    if trace[n].sender == s {
      assert LiveJoin(trace, n, u, s);
    }
    forall k | LiveJoin(trace, k, u, s) ensures trace[n].sender == s {
      assert k == n;
    }
  }

  /** When the last event does not join as `u`, the joins in force are
      those of the prefix, less the one the last event disconnects. */
  lemma NotJoinedLast(trace: seq<Incoming>, u: Value, s: SocketId)
    requires trace != [] && !JoinsAs(trace[|trace| - 1].event, u)
    ensures (exists k {:trigger LiveJoin(trace, k, u, s)} :: LiveJoin(trace, k, u, s)) <==>
              (exists k {:trigger LiveJoin(trace[..|trace| - 1], k, u, s)} :: LiveJoin(trace[..|trace| - 1], k, u, s))
              && trace[|trace| - 1] != Incoming(s, Disconnect)
  {
    var n := |trace| - 1;
    var prefix := trace[..n];
    var last := trace[n];
    assert !LatestJoin(trace, n, u);
    forall k | 0 <= k < n
      ensures LiveJoin(trace, k, u, s) <==> LiveJoin(prefix, k, u, s) && last != Incoming(s, Disconnect)
    {
      assert trace[k] == prefix[k];
      assert LatestJoin(trace, k, u) <==> LatestJoin(prefix, k, u) by {
        assert forall m :: k < m < n ==> trace[m] == prefix[m];
      }
      DisconnectedExtend(trace, k, s);
    }
    if exists k :: LiveJoin(trace, k, u, s) {
      var k :| LiveJoin(trace, k, u, s);
      assert k < n;
    }
  }

  lemma DisconnectedExtend(trace: seq<Incoming>, k: nat, s: SocketId)
    requires k < |trace| - 1
    ensures DisconnectedAfter(trace, k, s) <==>
              DisconnectedAfter(trace[..|trace| - 1], k, s) || trace[|trace| - 1] == Incoming(s, Disconnect)
  {
    var n := |trace| - 1;
    var prefix := trace[..n];
    if DisconnectedAfter(trace, k, s) && trace[n] != Incoming(s, Disconnect) {
      var m :| k < m < |trace| && trace[m] == Incoming(s, Disconnect);
      assert m < n && prefix[m] == trace[m];
    }
    if DisconnectedAfter(prefix, k, s) {
      var m :| k < m < |prefix| && prefix[m] == Incoming(s, Disconnect);
      assert trace[m] == prefix[m];
    }
  }

  /** After any history, user `u` is listed with socket s exactly when the
      latest join as `u` came from s and s has not disconnected since; in
      particular a disconnect of a superseded socket never evicts a user
      that re-joined from a newer one. */
  lemma RegistryReflectsLatestLiveJoin(trace: seq<Incoming>, u: Value, s: SocketId)
    ensures SocketOf(Replay(trace), u) == Some(s) <==> exists k :: LiveJoin(trace, k, u, s)
  {
    ReplayFollowsBinding(trace, u);
    BindingIsLatestLiveJoin(trace, u, s);
  }

  /** The offer scenario: A joins as u1 from socket a, B joins as u2 from
      a different socket b, and A's `callUser` for u2 is routed to socket b
      with A's signal and id intact. The sockets must differ: `socket.to(b)`
      from b itself would exclude the sender and reach nobody. */
  lemma OfferReachesCallee(a: SocketId, b: SocketId, u1: Value, u2: Value, n1: Value, n2: Value,
                           offer: CallData)
    requires Truthy(u1) && Truthy(u2) && u1 != u2 && a != b
    requires offer.userToCall == u2 && offer.from == u1
    ensures var trace := [Incoming(a, Join(Some(JoinUser(u1, n1)))), Incoming(b, Join(Some(JoinUser(u2, n2))))];
            var r := Step(Replay(trace), a, CallUser(Some(offer)));
            && r.emitted[0].target == ToSocket(b)
            && Lookup(r.emitted[0].payload, "signal") == offer.signal
            && Lookup(r.emitted[0].payload, "from") == u1
  {
    var trace := [Incoming(a, Join(Some(JoinUser(u1, n1)))), Incoming(b, Join(Some(JoinUser(u2, n2))))];
    TwoJoins(a, b, u1, u2, n1, n2);
    CallRoutedTo(Replay(trace), a, offer);
  }

  /** A `callUser` with a `data` argument is routed by the registry and
      carries the caller's signal and id. */
  lemma CallRoutedTo(reg: Registry, a: SocketId, offer: CallData)
    ensures var r := Step(reg, a, CallUser(Some(offer)));
            && r.emitted[0].target == Route(reg, offer.userToCall)
            && Lookup(r.emitted[0].payload, "signal") == offer.signal
            && Lookup(r.emitted[0].payload, "from") == offer.from
  {
    var r := OnCallUser(reg, Some(offer));
    assert Carries(r.emitted[0].payload, OfferFields, offer);
    assert "signal" in OfferFields && "from" in OfferFields;
  }

  /** After A and then B join, B's id is bound to B's socket. */
  lemma TwoJoins(a: SocketId, b: SocketId, u1: Value, u2: Value, n1: Value, n2: Value)
    requires Truthy(u1) && Truthy(u2)
    ensures var trace := [Incoming(a, Join(Some(JoinUser(u1, n1)))), Incoming(b, Join(Some(JoinUser(u2, n2))))];
            Route(Replay(trace), u2) == ToSocket(b)
  {
    var trace := [Incoming(a, Join(Some(JoinUser(u1, n1)))), Incoming(b, Join(Some(JoinUser(u2, n2))))];
    assert trace[..1] == [trace[0]] && [trace[0]][..0] == [];
    var reg1 := OnJoin([], a, Some(JoinUser(u1, n1))).registry;
    assert Replay(trace[..1]) == reg1;
    var reg2 := OnJoin(reg1, b, Some(JoinUser(u2, n2))).registry;
    assert Replay(trace) == reg2;
    assert SocketOf(reg2, u2) == Some(b);
  }
}

=== FILE: js.dfy ===
/** JavaScript values as the server and client code observe them, and the
    truthiness test that the code's `!x` and `x || y` expressions apply. */
module Js {

  /** An optional value: `None` stands for `undefined` (a missing field). */
  datatype Option<+T> = None | Some(value: T)

  /** A JavaScript value, as far as the model needs to tell values apart.
      Objects compare by identity under `===`, so an object is represented by
      an opaque reference. Numbers are integers here (NaN and -0 are not
      modelled). */
  datatype Value =
    | Undefined
    | Null
    | Bool(b: bool)
    | Num(n: int)
    | Str(s: string)
    | Obj(ref: nat)

  /** JavaScript truthiness: `!v` is true exactly when this is false. */
  predicate Truthy(v: Value) {
    match v
    case Undefined => false
    case Null => false
    case Bool(b) => b
    case Num(n) => n != 0
    case Str(s) => s != ""
    case Obj(_) => true
  }

  /** Truthiness of an optional string field: `undefined` and "" are falsy. */
  predicate TruthyText(s: Option<string>) {
    s.Some? && s.value != ""
  }
}

=== FILE: origins.dfy ===
/** The server's origin policy: the allowed-origin list read from the
    `client_url` setting, the origin check shared by the HTTP CORS
    middleware and the socket server, and the middleware's bypass for
    socket-server paths. */
module Origins {
  import opened Js
  import opened Strings

  /** The single origin allowed when `client_url` is unset or empty. */
  const DefaultClientUrl: string := "http://localhost:5173"

  /** `parts.map(url => url.trim())`. */
  function TrimAll(parts: seq<string>): (r: seq<string>)
    ensures |r| == |parts|
    ensures forall k :: 0 <= k < |parts| ==> r[k] == Trim(parts[k])
  {
    seq(|parts|, k requires 0 <= k < |parts| => Trim(parts[k]))
  }

  /** `allowedOrigins`: the comma-separated entries of `client_url`, each
      trimmed, or the default when the setting is unset or empty. The list
      is never empty and holds no entry with surrounding space. */
  function AllowedOrigins(clientUrl: Option<string>): (r: seq<string>)
    ensures |r| >= 1
    ensures forall o :: o in r ==> Trimmed(o)
    ensures !TruthyText(clientUrl) ==> r == [DefaultClientUrl]
    ensures TruthyText(clientUrl) ==>
              forall o :: o in r <==> exists seg :: seg in Split(clientUrl.value, ',') && Trim(seg) == o
  {
    if TruthyText(clientUrl) then TrimAll(Split(clientUrl.value, ','))
    else [DefaultClientUrl]
  }

  /** Configuring a list of clean origins, comma-separated, allows exactly
      that list, in that order. */
  lemma ConfiguredOriginsRoundTrip(origins: seq<string>)
    requires |origins| >= 1
    requires forall k :: 0 <= k < |origins| ==> Trimmed(origins[k]) && ',' !in origins[k]
    requires Join(origins, ',') != ""
    ensures AllowedOrigins(Some(Join(origins, ','))) == origins
  {
    SplitJoin(origins, ',');
    TrimAllTrimmed(origins);
    AllowedOfSetting(Join(origins, ','), origins);
  }

  lemma AllowedOfSetting(t: string, parts: seq<string>)
    requires t != "" && Split(t, ',') == parts && TrimAll(parts) == parts
    ensures AllowedOrigins(Some(t)) == parts
  {
  }

  lemma TrimAllTrimmed(parts: seq<string>)
    requires forall k :: 0 <= k < |parts| ==> Trimmed(parts[k])
    ensures TrimAll(parts) == parts
  {
    forall k | 0 <= k < |parts| ensures Trim(parts[k]) == parts[k] {
      TrimOfTrimmed(parts[k]);
    }
  }

  /** The outcome of the origin callback. */
  datatype Verdict = Allowed | Rejected(reason: string)

  /** The origin callback: requests without an origin (or with an empty
      one) are allowed, others only when the origin is exactly an allowed
      entry. */
  function CheckOrigin(origin: Option<string>, allowed: seq<string>): (v: Verdict)
    ensures v.Allowed? <==> !TruthyText(origin) || origin.value in allowed
    ensures v.Rejected? ==> v.reason == "Not allowed by CORS"
  {
    if !TruthyText(origin) || origin.value in allowed then Allowed
    else Rejected("Not allowed by CORS")
  }

  /** An origin with a leading or trailing space character is rejected
      whatever the configuration, since every allowed entry is trimmed. */
  lemma PaddedOriginRejected(clientUrl: Option<string>, origin: string)
    requires origin != "" && !Trimmed(origin)
    ensures CheckOrigin(Some(origin), AllowedOrigins(clientUrl)).Rejected?
  {
  }

  /** What the HTTP middleware does with a request: skip CORS handling
      altogether, or apply the origin callback. */
  datatype Gate = SkipCors | Cors(verdict: Verdict)

  const SocketPath: string := "/socket.io"

  /** The CORS middleware: a request whose URL contains `/socket.io`
      anywhere bypasses the check; every other request is judged by the
      origin callback. A missing URL reads as "". */
  function HttpGate(url: Option<string>, origin: Option<string>, allowed: seq<string>): (g: Gate)
    ensures g.SkipCors? <==> url.Some? && Includes(url.value, SocketPath)
    ensures g.Cors? ==> g.verdict == CheckOrigin(origin, allowed)
  {
    var path := if url.Some? then url.value else "";
    if Includes(path, SocketPath) then SkipCors
    else Cors(CheckOrigin(origin, allowed))
  }

  /** Containing `/socket.io` anywhere, a query string included, is enough
      to skip the origin check, whatever the origin. */
  lemma SocketPathAnywhereSkipsCors(pre: string, post: string, origin: Option<string>, allowed: seq<string>)
    ensures HttpGate(Some(pre + SocketPath + post), origin, allowed) == SkipCors
  {
    IncludesInfix(pre, SocketPath, post);
  }
}

=== FILE: presence.dfy ===
/** The presence registry (`onlineUsers`) and the call-signalling relay of
    the socket server. Every socket event is handled in one uninterrupted
    step of the event loop, so each handler is a pure function from the
    registry (and the event's sender and argument) to the new registry and
    the list of emissions it makes. */
module Presence {
  import opened Js
  import Seqs

  type SocketId = string

  /** One element of `onlineUsers`: `{id, name, socketId}`. */
  datatype Entry = Entry(id: Value, name: Value, socketId: SocketId)

  /** `onlineUsers`, in list order. */
  type Registry = seq<Entry>

  /** The `id` and `name` fields of a `join` argument. A missing argument,
      or a falsy one, is `None`. */
  datatype JoinUser = JoinUser(id: Value, name: Value)

  /** The fields the relay handlers destructure from their `data` argument;
      a field the client did not send reads as `Undefined`. */
  datatype CallData = CallData(
    userToCall: Value, to: Value, signal: Value, from: Value,
    name: Value, profilePicture: Value, email: Value)

  /** Where an emission goes. `ToSocket` and `ToRoomExceptSender` are
      `socket.to(..)`: the room named by a socket id or by a user id, never
      including the sending socket. `IoRoom` is `io.to(..)`, which includes
      the sender when it is in the room. */
  datatype Target =
    | ToSocket(socketId: SocketId)
    | ToRoomExceptSender(room: Value)
    | IoRoom(room: Value)
    | BroadcastAll
    | BroadcastExceptSender

  /** The body of an emission: the registry snapshot (`getOnlineUsers`), a
      bare user id (`userDisconnected`), or an object literal whose fields
      are listed in source order. */
  datatype Payload =
    | OnlineUsers(users: Registry)
    | UserRef(id: Value)
    | Fields(fields: seq<(string, Value)>)

  datatype Emission = Emission(target: Target, event: string, payload: Payload)

  /** A socket event the server listens to, with its argument. */
  datatype Event =
    | Join(user: Option<JoinUser>)
    | CallUser(data: Option<CallData>)
    | AnswerCall(data: Option<CallData>)
    | RejectCall(data: Option<CallData>)
    | EndCall(data: Option<CallData>)
    | Disconnect

  /** The effect of handling one event. `threw` is set when a handler raised
      a TypeError (destructuring a missing `data` argument); the registry and
      the emissions are then those made before the throw. */
  datatype StepResult = StepResult(registry: Registry, emitted: seq<Emission>, threw: bool)

  // -------------------------------------------------------------- registry

  /** No user id occurs twice in the registry. */
  predicate UniqueIds(reg: Registry) {
    forall i, j :: 0 <= i < j < |reg| ==> reg[i].id != reg[j].id
  }

  /** The invariant the handlers maintain: ids are distinct and truthy. */
  predicate Valid(reg: Registry) {
    UniqueIds(reg) && forall e :: e in reg ==> Truthy(e.id)
  }

  /** `onlineUsers.findIndex(u => u.id === id)`. */
  function IndexOfUser(reg: Registry, id: Value): (r: Option<nat>)
    ensures r.Some? ==> r.value < |reg| && reg[r.value].id == id
    ensures r.Some? ==> forall j :: 0 <= j < r.value ==> reg[j].id != id
    ensures r.None? <==> forall e :: e in reg ==> e.id != id
  {
    Seqs.FindIndex(reg, (e: Entry) => e.id == id)
  }

  /** The socket the registry binds user `id` to, if the user is listed. */
  function SocketOf(reg: Registry, id: Value): (r: Option<SocketId>)
    ensures r.Some? <==> exists e :: e in reg && e.id == id
    ensures r.Some? ==> exists e :: e in reg && e.id == id && e.socketId == r.value
    ensures UniqueIds(reg) ==> forall e :: e in reg && e.id == id ==> r == Some(e.socketId)
  {
    match IndexOfUser(reg, id)
    case None => None
    case Some(i) => Some(reg[i].socketId)
  }

  // ------------------------------------------------------------------ join

  /** `join` proceeds only with a user object whose `id` is truthy. */
  predicate ValidJoin(user: Option<JoinUser>) {
    user.Some? && Truthy(user.value.id)
  }

  /** The `join` handler: a malformed join is ignored; otherwise the user's
      entry is re-bound to the sending socket (keeping its name and its
      place) or appended, and the whole registry is broadcast. */
  function OnJoin(reg: Registry, sender: SocketId, user: Option<JoinUser>): (r: StepResult)
    ensures !r.threw
    ensures !ValidJoin(user) ==> r.registry == reg && r.emitted == []
    ensures ValidJoin(user) ==>
              r.emitted == [Emission(BroadcastAll, "getOnlineUsers", OnlineUsers(r.registry))]
    ensures ValidJoin(user) ==> SocketOf(r.registry, user.value.id) == Some(sender)
    ensures ValidJoin(user) ==>
              forall u :: u != user.value.id ==> SocketOf(r.registry, u) == SocketOf(reg, u)
    ensures ValidJoin(user) && SocketOf(reg, user.value.id).Some? ==>
              && |r.registry| == |reg|
              && (forall k :: 0 <= k < |reg| ==>
                    r.registry[k].id == reg[k].id && r.registry[k].name == reg[k].name)
              && (forall k :: 0 <= k < |reg| && reg[k].id != user.value.id ==> r.registry[k] == reg[k])
    ensures ValidJoin(user) && SocketOf(reg, user.value.id).None? ==>
              r.registry == reg + [Entry(user.value.id, user.value.name, sender)]
    ensures Valid(reg) ==> Valid(r.registry)
  {
    if !ValidJoin(user) then StepResult(reg, [], false)
    else
      var id := user.value.id;
      var reg' := match IndexOfUser(reg, id)
        case Some(i) => reg[i := reg[i].(socketId := sender)]
        case None => reg + [Entry(id, user.value.name, sender)];
      JoinBinds(reg, reg', id, user.value.name, sender);
      JoinShape(reg, reg', id, user.value.name, sender);
      StepResult(reg', [Emission(BroadcastAll, "getOnlineUsers", OnlineUsers(reg'))], false)
  }

  lemma JoinBinds(reg: Registry, reg': Registry, id: Value, name: Value, sender: SocketId)
    requires reg' == match IndexOfUser(reg, id)
                     case Some(i) => reg[i := reg[i].(socketId := sender)]
                     case None => reg + [Entry(id, name, sender)]
    ensures SocketOf(reg', id) == Some(sender)
    ensures forall u :: u != id ==> IndexOfUser(reg', u) == IndexOfUser(reg, u)
    ensures forall u :: u != id ==> SocketOf(reg', u) == SocketOf(reg, u)
  {
    var k := match IndexOfUser(reg, id) case Some(i) => i case None => |reg|;
    assert forall j :: 0 <= j < |reg| ==> reg'[j].id == reg[j].id;
    FirstIndexIs(reg', id, k);
    assert |reg'| == |reg| + 1 ==> reg'[|reg|].id == id;
    forall u | u != id
      ensures IndexOfUser(reg', u) == IndexOfUser(reg, u)
    {
      OtherIdsKept(reg, reg', id, u);
    }
  }

  /** A registry that keeps every id in place and at most appends an entry
      for `id` finds every other user where it found them before. */
  lemma OtherIdsKept(reg: Registry, reg': Registry, id: Value, u: Value)
    requires u != id && |reg| <= |reg'| <= |reg| + 1
    requires forall j :: 0 <= j < |reg| ==> reg'[j].id == reg[j].id
    requires |reg'| == |reg| + 1 ==> reg'[|reg|].id == id
    ensures IndexOfUser(reg', u) == IndexOfUser(reg, u)
  {
    match IndexOfUser(reg, u)
    case Some(i) => FirstIndexIs(reg', u, i);
    case None =>
      forall e | e in reg' ensures e.id != u {
        var j :| 0 <= j < |reg'| && reg'[j] == e;
        if j < |reg| { assert reg[j] in reg; }
      }
  }

  /** A re-bind keeps every entry's id, name and place; a first join appends;
      either way a truthy id keeps the registry valid. */
  lemma JoinShape(reg: Registry, reg': Registry, id: Value, name: Value, sender: SocketId)
    requires reg' == match IndexOfUser(reg, id)
                     case Some(i) => reg[i := reg[i].(socketId := sender)]
                     case None => reg + [Entry(id, name, sender)]
    ensures SocketOf(reg, id).Some? ==>
              && |reg'| == |reg|
              && (forall k :: 0 <= k < |reg| ==> reg'[k].id == reg[k].id && reg'[k].name == reg[k].name)
              && (forall k :: 0 <= k < |reg| && reg[k].id != id ==> reg'[k] == reg[k])
    ensures SocketOf(reg, id).None? ==> reg' == reg + [Entry(id, name, sender)]
    ensures Valid(reg) && Truthy(id) ==> Valid(reg')
  {
    match IndexOfUser(reg, id)
    case Some(i) =>
      assert forall k :: 0 <= k < |reg| ==> reg'[k].id == reg[k].id;
      if Valid(reg) {
        forall e | e in reg' ensures Truthy(e.id) {
          var k :| 0 <= k < |reg'| && reg'[k] == e;
          assert reg[k] in reg;
        }
      }
    case None =>
      if Valid(reg) && Truthy(id) {
        forall j | 0 <= j < |reg| ensures reg'[j].id != id {
          assert reg[j] in reg;
        }
      }
  }

  /** An index whose entry has the id, with none before it, is the one
      `IndexOfUser` finds. */
  lemma FirstIndexIs(reg: Registry, id: Value, i: nat)
    requires i < |reg| && reg[i].id == id
    requires forall j :: 0 <= j < i ==> reg[j].id != id
    ensures IndexOfUser(reg, id) == Some(i)
  {
    assert reg[i] in reg;
  }

  // ------------------------------------------------------------ disconnect

  /** The `disconnect` handler: every entry bound to the departing socket is
      filtered out, the registry is broadcast whether or not anything was
      removed, and, if an entry was bound to that socket, everybody else is
      told the id of the first such entry. */
  function OnDisconnect(reg: Registry, sender: SocketId): (r: StepResult)
    ensures !r.threw
    ensures forall e :: e in r.registry <==> e in reg && e.socketId != sender
    ensures Seqs.IsSubsequence(r.registry, reg)
    ensures forall e :: e in reg ==>
              multiset(r.registry)[e] == if e.socketId != sender then multiset(reg)[e] else 0
    ensures 1 <= |r.emitted| <= 2
    ensures r.emitted[0] == Emission(BroadcastAll, "getOnlineUsers", OnlineUsers(r.registry))
    ensures |r.emitted| == 2 <==> exists e :: e in reg && e.socketId == sender
    ensures |r.emitted| == 2 ==>
              exists i :: 0 <= i < |reg| && reg[i].socketId == sender
                          && (forall j :: 0 <= j < i ==> reg[j].socketId != sender)
                          && r.emitted[1] == Emission(BroadcastExceptSender, "userDisconnected", UserRef(reg[i].id))
    ensures Valid(reg) ==> Valid(r.registry)
    ensures UniqueIds(reg) ==>
              forall u :: SocketOf(r.registry, u) == (if SocketOf(reg, u) == Some(sender) then None else SocketOf(reg, u))
  {
    var first := Seqs.FindIndex(reg, (e: Entry) => e.socketId == sender);
    var reg' := Seqs.Filter(reg, (e: Entry) => e.socketId != sender);
    Departed(reg, sender, reg');
    FirstDeparting(reg, sender, first);
    var broadcast := [Emission(BroadcastAll, "getOnlineUsers", OnlineUsers(reg'))];
    match first
    case None => StepResult(reg', broadcast, false)
    case Some(i) => StepResult(reg', broadcast + [Emission(BroadcastExceptSender, "userDisconnected", UserRef(reg[i].id))], false)
  }

  /** The first entry of the departing socket, found iff the socket has one. */
  lemma FirstDeparting(reg: Registry, sender: SocketId, first: Option<nat>)
    requires first == Seqs.FindIndex(reg, (e: Entry) => e.socketId == sender)
    ensures first.Some? <==> exists e :: e in reg && e.socketId == sender
    ensures first.Some? ==> first.value < |reg| && reg[first.value].socketId == sender
    ensures first.Some? ==> forall j :: 0 <= j < first.value ==> reg[j].socketId != sender
  {
    if first.Some? {
      assert reg[first.value] in reg;
    }
  }

  /** What removing the departing socket's entries does to the registry. */
  lemma Departed(reg: Registry, sender: SocketId, reg': Registry)
    requires reg' == Seqs.Filter(reg, (e: Entry) => e.socketId != sender)
    ensures forall e :: e in reg' <==> e in reg && e.socketId != sender
    ensures Seqs.IsSubsequence(reg', reg)
    ensures forall e :: e in reg ==>
              multiset(reg')[e] == if e.socketId != sender then multiset(reg)[e] else 0
    ensures Valid(reg) ==> Valid(reg')
    ensures UniqueIds(reg) ==>
              forall u :: SocketOf(reg', u) == (if SocketOf(reg, u) == Some(sender) then None else SocketOf(reg, u))
  {
    FilterKeepsUniqueIds(reg, sender);
    DisconnectUnbinds(reg, reg', sender);
  }

  lemma FilterKeepsUniqueIds(reg: Registry, sender: SocketId)
    ensures UniqueIds(reg) ==> UniqueIds(Seqs.Filter(reg, (e: Entry) => e.socketId != sender))
    decreases |reg|
  {
    if reg != [] && UniqueIds(reg) {
      var p := (e: Entry) => e.socketId != sender;
      var rest := Seqs.Filter(reg[1..], p);
      FilterKeepsUniqueIds(reg[1..], sender);
      if p(reg[0]) {
        assert forall e :: e in rest ==> e in reg[1..];
        HeadIdFresh(reg);
        ConsUniqueIds(reg[0], rest);
      }
    }
  }

  /** In a registry with unique ids, no later entry shares the head's id. */
  lemma HeadIdFresh(reg: Registry)
    requires reg != [] && UniqueIds(reg)
    ensures UniqueIds(reg[1..])
    ensures forall e :: e in reg[1..] ==> e.id != reg[0].id
  {
    forall e | e in reg[1..] ensures e.id != reg[0].id {
      var k :| 0 <= k < |reg[1..]| && reg[1..][k] == e;
      assert reg[k + 1] == e;
    }
  }

  /** An entry whose id is absent from a registry with unique ids can be
      put in front of it. */
  lemma ConsUniqueIds(x: Entry, rest: Registry)
    requires UniqueIds(rest) && forall e :: e in rest ==> e.id != x.id
    ensures UniqueIds([x] + rest)
  {
    var r := [x] + rest;
    forall i, j | 0 <= i < j < |r| ensures r[i].id != r[j].id {
      assert r[j] == rest[j - 1];
      if i > 0 {
        assert r[i] == rest[i - 1];
      } else {
        assert r[j] in rest;
      }
    }
  }

  /** Filtering out the departing socket unbinds exactly the users bound to
      it: a user whose entry was re-bound to another socket stays bound. */
  lemma DisconnectUnbinds(reg: Registry, reg': Registry, sender: SocketId)
    requires forall e :: e in reg' <==> e in reg && e.socketId != sender
    requires UniqueIds(reg) ==> UniqueIds(reg')
    ensures UniqueIds(reg) ==> forall u :: SocketOf(reg', u) == (if SocketOf(reg, u) == Some(sender) then None else SocketOf(reg, u))
  {
  }

  // ---------------------------------------------------------------- relay

  /** The registry-first routing shared by the relay handlers: the target
      user's registered socket if there is an entry for it, otherwise the
      room named after the user id. */
  function Route(reg: Registry, to: Value): (t: Target)
    ensures t.ToSocket? || t == ToRoomExceptSender(to)
    ensures t.ToSocket? <==> exists e :: e in reg && e.id == to
    ensures t.ToSocket? ==> exists e :: e in reg && e.id == to && e.socketId == t.socketId
    ensures t.ToSocket? && UniqueIds(reg) ==> forall e :: e in reg && e.id == to ==> e.socketId == t.socketId
  {
    match SocketOf(reg, to)
    case Some(s) => ToSocket(s)
    case None => ToRoomExceptSender(to)
  }

  /** The value of a named field of the handler's `data` argument. */
  function Get(d: CallData, key: string): Value {
    if key == "userToCall" then d.userToCall
    else if key == "to" then d.to
    else if key == "signal" then d.signal
    else if key == "from" then d.from
    else if key == "name" then d.name
    else if key == "profilePicture" then d.profilePicture
    else if key == "email" then d.email
    else Undefined
  }

  /** The object literal `{k1, k2, ...}` built from destructured fields. */
  function Project(d: CallData, keys: seq<string>): (fs: seq<(string, Value)>)
    ensures |fs| == |keys|
    ensures forall k :: 0 <= k < |keys| ==> fs[k] == (keys[k], Get(d, keys[k]))
  {
    seq(|keys|, k requires 0 <= k < |keys| => (keys[k], Get(d, keys[k])))
  }

  /** Reading field `key` of a payload; absent fields read as `Undefined`. */
  function Lookup(p: Payload, key: string): Value {
    if p.Fields? then LookupField(p.fields, key) else Undefined
  }

  function LookupField(fs: seq<(string, Value)>, key: string): (v: Value)
    ensures (forall k :: 0 <= k < |fs| ==> fs[k].0 != key) ==> v == Undefined
    ensures forall k :: 0 <= k < |fs| && fs[k].0 == key && (forall j :: 0 <= j < k ==> fs[j].0 != key) ==> v == fs[k].1
    decreases |fs|
  {
    if fs == [] then Undefined
    else if fs[0].0 == key then fs[0].1
    else
      assert forall k :: 1 <= k < |fs| ==> fs[k] == fs[1..][k - 1];
      LookupField(fs[1..], key)
  }

  /** The payload is an object with exactly the fields `keys`, each holding
      the value the client sent under that name. */
  ghost predicate Carries(p: Payload, keys: seq<string>, d: CallData) {
    && p.Fields?
    && |p.fields| == |keys|
    && (forall k :: 0 <= k < |keys| ==> p.fields[k].0 == keys[k])
    && (forall key :: key in keys ==> Lookup(p, key) == Get(d, key))
    && (forall key :: key !in keys ==> Lookup(p, key) == Undefined)
  }

  const OfferFields: seq<string> := ["signal", "from", "name", "profilePicture", "email"]
  const AnswerRoomFields: seq<string> := ["signal", "from"]
  const RejectFields: seq<string> := ["from", "name", "profilePicture", "email"]
  const EndFields: seq<string> := ["from", "name"]

  /** One registry-routed emission of `event` carrying the fields `keys`. */
  function Relay(reg: Registry, to: Value, event: string, keys: seq<string>, d: CallData): (m: Emission)
    ensures m.target == Route(reg, to) && m.event == event
    ensures Carries(m.payload, keys, d)
  {
    ProjectCarries(d, keys);
    Emission(Route(reg, to), event, Fields(Project(d, keys)))
  }

  /** The projected object carries exactly the listed fields. */
  lemma ProjectCarries(d: CallData, keys: seq<string>)
    ensures Carries(Fields(Project(d, keys)), keys, d)
  {
    var fs := Project(d, keys);
    forall key | key in keys ensures LookupField(fs, key) == Get(d, key) {
      ProjectedKey(d, keys, key);
    }
  }

  lemma ProjectedKey(d: CallData, keys: seq<string>, key: string)
    requires key in keys
    ensures LookupField(Project(d, keys), key) == Get(d, key)
  {
    var fs := Project(d, keys);
    var k :| 0 <= k < |keys| && keys[k] == key;
    FirstKey(keys, key, k);
    var k0 :| 0 <= k0 < |keys| && keys[k0] == key && forall j :: 0 <= j < k0 ==> keys[j] != key;
    assert fs[k0] == (key, Get(d, key));
  }

  lemma FirstKey(keys: seq<string>, key: string, k: nat)
    requires k < |keys| && keys[k] == key
    ensures exists k0 :: 0 <= k0 < |keys| && keys[k0] == key && forall j :: 0 <= j < k0 ==> keys[j] != key
    decreases k
  {
    if exists j :: 0 <= j < k && keys[j] == key {
      var j :| 0 <= j < k && keys[j] == key;
      FirstKey(keys, key, j);
    }
  }

  /** A relay handler that makes one registry-routed emission; a missing
      `data` argument makes the destructuring throw before anything is sent. */
  function RelayHandler(reg: Registry, data: Option<CallData>, target: CallData -> Value,
                        event: string, keys: seq<string>): (r: StepResult)
    ensures r.registry == reg
    ensures data.None? ==> r.threw && r.emitted == []
    ensures data.Some? ==> !r.threw && r.emitted == [Relay(reg, target(data.value), event, keys, data.value)]
  {
    match data
    case None => StepResult(reg, [], true)
    case Some(d) => StepResult(reg, [Relay(reg, target(d), event, keys, d)], false)
  }

  /** `callUser`: forwarded to `userToCall` with the caller's signal and
      profile fields. */
  function OnCallUser(reg: Registry, data: Option<CallData>): (r: StepResult)
    ensures r.registry == reg
    ensures data.None? ==> r.threw && r.emitted == []
    ensures data.Some? ==>
              && !r.threw && |r.emitted| == 1
              && r.emitted[0].event == "callUser"
              && r.emitted[0].target == Route(reg, data.value.userToCall)
              && Carries(r.emitted[0].payload, OfferFields, data.value)
  {
    RelayHandler(reg, data, (d: CallData) => d.userToCall, "callUser", OfferFields)
  }

  /** `rejectCall`: forwarded to `to` as `callRejected`. */
  function OnRejectCall(reg: Registry, data: Option<CallData>): (r: StepResult)
    ensures r.registry == reg
    ensures data.None? ==> r.threw && r.emitted == []
    ensures data.Some? ==>
              && !r.threw && |r.emitted| == 1
              && r.emitted[0].event == "callRejected"
              && r.emitted[0].target == Route(reg, data.value.to)
              && Carries(r.emitted[0].payload, RejectFields, data.value)
  {
    RelayHandler(reg, data, (d: CallData) => d.to, "callRejected", RejectFields)
  }

  /** `endCall`: forwarded to `to` with the sender's id and name. */
  function OnEndCall(reg: Registry, data: Option<CallData>): (r: StepResult)
    ensures r.registry == reg
    ensures data.None? ==> r.threw && r.emitted == []
    ensures data.Some? ==>
              && !r.threw && |r.emitted| == 1
              && r.emitted[0].event == "endCall"
              && r.emitted[0].target == Route(reg, data.value.to)
              && Carries(r.emitted[0].payload, EndFields, data.value)
  {
    RelayHandler(reg, data, (d: CallData) => d.to, "endCall", EndFields)
  }

  /** `AnswerCall` has two listeners, run in registration order. The first
      sends `{signal, from}` to the room `to` through the server (sender
      included); the second is the registry-routed relay with all fields. A
      missing `data` makes the first listener throw, so neither emits. */
  function OnAnswerCall(reg: Registry, data: Option<CallData>): (r: StepResult)
    ensures r.registry == reg
    ensures data.None? ==> r.threw && r.emitted == []
    ensures data.Some? ==>
              && !r.threw && |r.emitted| == 2
              && r.emitted[0].event == "callAccepted" && r.emitted[1].event == "callAccepted"
              && r.emitted[0].target == IoRoom(data.value.to)
              && Carries(r.emitted[0].payload, AnswerRoomFields, data.value)
              && r.emitted[1].target == Route(reg, data.value.to)
              && Carries(r.emitted[1].payload, OfferFields, data.value)
  {
    match data
    case None => StepResult(reg, [], true)
    case Some(d) =>
      var viaRoom := Relay(reg, d.to, "callAccepted", AnswerRoomFields, d).(target := IoRoom(d.to));
      StepResult(reg, [viaRoom, Relay(reg, d.to, "callAccepted", OfferFields, d)], false)
  }

  /** One event from socket `sender`, handled atomically. */
  function Step(reg: Registry, sender: SocketId, ev: Event): (r: StepResult)
    ensures Valid(reg) ==> Valid(r.registry)
    ensures !ev.Join? && !ev.Disconnect? ==> r.registry == reg
    ensures ev.Join? && !ValidJoin(ev.user) ==> r == StepResult(reg, [], false)
  {
    match ev
    case Join(user) => OnJoin(reg, sender, user)
    case CallUser(data) => OnCallUser(reg, data)
    case AnswerCall(data) => OnAnswerCall(reg, data)
    case RejectCall(data) => OnRejectCall(reg, data)
    case EndCall(data) => OnEndCall(reg, data)
    case Disconnect => OnDisconnect(reg, sender)
  }
}

=== FILE: seqs.dfy ===
/** The two array methods the modelled code leans on, `filter` and
    `find`/`findIndex`, together with the order-preserving subsequence
    relation that `filter` establishes. */
module Seqs {
  import opened Js

  /** a can be obtained from b by deleting elements, keeping the order. */
  predicate IsSubsequence<T(==)>(a: seq<T>, b: seq<T>)
    decreases |b|
  {
    if a == [] then true
    else if b == [] then false
    else if a[0] == b[0] then IsSubsequence(a[1..], b[1..])
    else IsSubsequence(a, b[1..])
  }

  /** Dropping the first element of a subsequence keeps it a subsequence. */
  lemma {:induction false} SubsequenceDropFirst<T>(a: seq<T>, b: seq<T>)
    requires a != [] && IsSubsequence(a, b)
    ensures IsSubsequence(a[1..], b)
    decreases |b|, 0
  {
    if a[0] == b[0] {
      SubsequenceConsRight(a[1..], b[1..], b[0]);
      assert [b[0]] + b[1..] == b;
    } else {
      SubsequenceDropFirst(a, b[1..]);
      SubsequenceConsRight(a[1..], b[1..], b[0]);
      assert [b[0]] + b[1..] == b;
    }
  }

  /** Putting a new element in front of b keeps a a subsequence of it. */
  lemma {:induction false} SubsequenceConsRight<T>(a: seq<T>, b: seq<T>, x: T)
    requires IsSubsequence(a, b)
    ensures IsSubsequence(a, [x] + b)
    decreases |b|, 1
  {
    var xb := [x] + b;
    assert xb[1..] == b;
    if a != [] && a[0] == x {
      SubsequenceDropFirst(a, b);
    }
  }

  /** The elements of s that satisfy p, in their original order. */
  function Filter<T>(s: seq<T>, p: T -> bool): (r: seq<T>)
    ensures |r| <= |s|
    ensures IsSubsequence(r, s)
    ensures forall x :: x in r ==> x in s && p(x)
    ensures forall x :: x in s && p(x) ==> x in r
    ensures forall x :: x in s ==> multiset(r)[x] == if p(x) then multiset(s)[x] else 0
    decreases |s|
  {
    if s == [] then []
    else
      var rest := Filter(s[1..], p);
      FilterStep(s, p, rest);
      if p(s[0]) then [s[0]] + rest else rest
  }

  /** Keeping or dropping the head of s, in front of a filtered tail,
      gives a filtered s. */
  lemma FilterStep<T>(s: seq<T>, p: T -> bool, rest: seq<T>)
    requires s != []
    requires |rest| <= |s[1..]| && IsSubsequence(rest, s[1..])
    requires forall x :: x in rest ==> x in s[1..] && p(x)
    requires forall x :: x in s[1..] && p(x) ==> x in rest
    requires forall x :: x in s[1..] ==> multiset(rest)[x] == if p(x) then multiset(s[1..])[x] else 0
    ensures var r := if p(s[0]) then [s[0]] + rest else rest;
            && |r| <= |s|
            && IsSubsequence(r, s)
            && (forall x :: x in r ==> x in s && p(x))
            && (forall x :: x in s && p(x) ==> x in r)
            && (forall x :: x in s ==> multiset(r)[x] == if p(x) then multiset(s)[x] else 0)
  {
    assert s == [s[0]] + s[1..];
    FilterCounts(s, p, rest);
    if p(s[0]) {
      var r := [s[0]] + rest;
      assert r[1..] == rest;
    } else {
      SubsequenceConsRight(rest, s[1..], s[0]);
    }
  }

  /** The multiplicities a filtered tail keeps carry over to the whole
      sequence once its head is kept or dropped. */
  lemma FilterCounts<T>(s: seq<T>, p: T -> bool, rest: seq<T>)
    requires s != []
    requires forall x :: x in rest ==> x in s[1..]
    requires forall x :: x in s[1..] ==> multiset(rest)[x] == if p(x) then multiset(s[1..])[x] else 0
    ensures forall x :: x in s ==>
              multiset(if p(s[0]) then [s[0]] + rest else rest)[x] == if p(x) then multiset(s)[x] else 0
  {
    assert s == [s[0]] + s[1..];
    assert multiset(s) == multiset{s[0]} + multiset(s[1..]);
    var r := if p(s[0]) then [s[0]] + rest else rest;
    assert multiset(r) == if p(s[0]) then multiset{s[0]} + multiset(rest) else multiset(rest);
    forall x | x in s && x !in s[1..]
      ensures multiset(rest)[x] == 0 && multiset(s[1..])[x] == 0
    {
      assert x !in rest;
    }
  }

  /** The positions of s whose element satisfies p. */
  function Positions<T>(s: seq<T>, p: T -> bool): set<nat> {
    set i: nat | i < |s| && p(s[i])
  }

  /** Filter keeps one element per position that satisfies p. */
  lemma {:induction false} FilterLength<T>(s: seq<T>, p: T -> bool)
    ensures |Filter(s, p)| == |Positions(s, p)|
    decreases |s|
  {
    if s != [] {
      FilterLength(s[1..], p);
      PositionsCons(s, p);
      if p(s[0]) {
        assert |Filter(s, p)| == 1 + |Filter(s[1..], p)|;
      }
    } else {
      assert Positions(s, p) == {};
    }
  }

  lemma PositionsCons<T>(s: seq<T>, p: T -> bool)
    requires s != []
    ensures |Positions(s, p)| == |Positions(s[1..], p)| + (if p(s[0]) then 1 else 0)
  {
    var shifted := Shift(Positions(s[1..], p));
    Shifted(Positions(s[1..], p));
    TailPositions(s, p);
    if p(s[0]) {
      assert Positions(s, p) == {0} + shifted;
    } else {
      assert Positions(s, p) == shifted;
    }
  }

  /** The positions of the tail, moved up by one, are the positions of s
      after the first. */
  lemma TailPositions<T>(s: seq<T>, p: T -> bool)
    requires s != []
    ensures forall i :: i in Shift(Positions(s[1..], p)) <==> 1 <= i < |s| && p(s[i])
  {
    var tail := Positions(s[1..], p);
    assert forall i: nat :: i < |s[1..]| ==> s[1..][i] == s[i + 1];
    forall i | 1 <= i < |s| && p(s[i]) ensures i in Shift(tail) {
      assert i - 1 in tail;
    }
  }

  /** Every member of xs plus one. */
  function Shift(xs: set<nat>): set<nat> {
    set i | i in xs :: i + 1
  }

  /** Adding one to every member of a set keeps its size. */
  lemma {:induction false} Shifted(xs: set<nat>)
    ensures |Shift(xs)| == |xs|
    decreases |xs|
  {
    if xs != {} {
      var x :| x in xs;
      var ys, zs := Shift(xs), Shift(xs - {x});
      Shifted(xs - {x});
      assert |xs - {x}| == |xs| - 1;
      forall y | y in ys ensures y in zs + {x + 1} {
        var i :| i in xs && y == i + 1;
        if i != x {
          assert i in xs - {x};
        }
      }
      forall y | y in zs + {x + 1} ensures y in ys {
        if y == x + 1 {
          assert x in xs;
        } else {
          var i :| i in xs - {x} && y == i + 1;
          assert i in xs;
        }
      }
      assert ys == zs + {x + 1};
      assert x + 1 !in zs;
    } else {
      assert Shift(xs) == {};
    }
  }


  /** Filtering with a stronger predicate keeps a subsequence of what the
      weaker predicate keeps. */
  lemma {:induction false} FilterStronger<T>(s: seq<T>, p: T -> bool, q: T -> bool)
    requires forall x :: x in s && p(x) ==> q(x)
    ensures IsSubsequence(Filter(s, p), Filter(s, q))
    decreases |s|
  {
    if s != [] {
      FilterStronger(s[1..], p, q);
      var fp, fq := Filter(s[1..], p), Filter(s[1..], q);
      if p(s[0]) {
        assert Filter(s, p) == [s[0]] + fp && Filter(s, q) == [s[0]] + fq;
        assert ([s[0]] + fp)[1..] == fp && ([s[0]] + fq)[1..] == fq;
      } else if q(s[0]) {
        SubsequenceConsRight(fp, fq, s[0]);
      }
    }
  }

  /** Predicates that agree on every element of s filter it alike. */
  lemma {:induction false} FilterSame<T>(s: seq<T>, p: T -> bool, q: T -> bool)
    requires forall x :: x in s ==> p(x) == q(x)
    ensures Filter(s, p) == Filter(s, q)
    decreases |s|
  {
    if s != [] {
      FilterSame(s[1..], p, q);
    }
  }

  /** `findIndex`: the index of the first element satisfying p, if any
      (JavaScript's `find` returns the element at that index). */
  function FindIndex<T>(s: seq<T>, p: T -> bool): (r: Option<nat>)
    ensures r.Some? ==> r.value < |s| && p(s[r.value])
    ensures r.Some? ==> forall j :: 0 <= j < r.value ==> !p(s[j])
    ensures r.None? ==> forall j :: 0 <= j < |s| ==> !p(s[j])
    decreases |s|
  {
    if s == [] then None
    else if p(s[0]) then Some(0)
    else
      match FindIndex(s[1..], p)
      case None => None
      case Some(i) => Some(i + 1)
  }

  /** `find`: the first element satisfying p, if any. */
  function Find<T>(s: seq<T>, p: T -> bool): (r: Option<T>)
    ensures r.Some? ==> exists i :: 0 <= i < |s| && s[i] == r.value && p(s[i])
                                   && forall j :: 0 <= j < i ==> !p(s[j])
    ensures r.None? <==> forall x :: x in s ==> !p(x)
  {
    match FindIndex(s, p)
    case None => None
    case Some(i) => Some(s[i])
  }
}

=== FILE: strings.dfy ===
/** The string routines of the JavaScript runtime that the modelled code
    uses, over `seq<char>`: ASCII-only `toLowerCase`, `includes`, `indexOf`,
    `replace` of the first occurrence, `split` on a one-character separator
    and `trim`. */
module Strings {
  import opened Js

  // ---------------------------------------------------------------- case

  predicate IsAsciiUpper(c: char) {
    'A' <= c <= 'Z'
  }

  function LowerChar(c: char): (r: char)
    ensures !IsAsciiUpper(r)
    ensures IsAsciiUpper(c) ==> r as int == c as int + 32
    ensures !IsAsciiUpper(c) ==> r == c
  {
    if IsAsciiUpper(c) then (c as int + 32) as char else c
  }

  /** `toLowerCase`, restricted to ASCII letters. */
  function Lower(s: string): (r: string)
    ensures |r| == |s|
    ensures forall i :: 0 <= i < |s| ==> r[i] == LowerChar(s[i])
    decreases |s|
  {
    if s == [] then [] else [LowerChar(s[0])] + Lower(s[1..])
  }

  /** Lower-casing twice is lower-casing once. */
  lemma LowerIdempotent(s: string)
    ensures Lower(Lower(s)) == Lower(s)
  {
  }

  /** Lower-casing works character by character, so it distributes over
      concatenation. */
  lemma LowerAppend(a: string, b: string)
    ensures Lower(a + b) == Lower(a) + Lower(b)
  {
    var l, r := Lower(a + b), Lower(a) + Lower(b);
    assert |l| == |r|;
    forall i | 0 <= i < |l| ensures l[i] == r[i] {
      if i < |a| {
        assert (a + b)[i] == a[i];
      } else {
        assert (a + b)[i] == b[i - |a|];
      }
    }
  }

  // ------------------------------------------------------------ searching

  /** `s.includes(q)`: q occurs in s (the empty string occurs everywhere).
      As in ECMAScript, it holds exactly when `s.indexOf(q)` finds an
      occurrence; `IncludesAt` states the occurrence by position. */
  predicate Includes(s: string, q: string): (b: bool)
    ensures b <==> IndexOf(s, q).Some?
    ensures q <= s ==> b
    ensures |q| > |s| ==> !b
    decreases |s|
  {
    q <= s || (s != [] && Includes(s[1..], q))
  }

  /** `Includes` agrees with the positional definition: q is a prefix of
      some suffix of s. */
  lemma {:induction false} IncludesAt(s: string, q: string)
    ensures Includes(s, q) <==> exists i :: 0 <= i <= |s| && q <= s[i..]
    decreases |s|
  {
    if s != [] {
      IncludesAt(s[1..], q);
      if Includes(s[1..], q) {
        var i :| 0 <= i <= |s[1..]| && q <= s[1..][i..];
        assert s[1..][i..] == s[i + 1..];
      }
      if exists i :: 0 <= i <= |s| && q <= s[i..] {
        var i :| 0 <= i <= |s| && q <= s[i..];
        if i > 0 {
          assert s[i..] == s[1..][i - 1..];
        } else {
          assert s[0..] == s;
        }
      }
    } else {
      if exists i :: 0 <= i <= |s| && q <= s[i..] {
        var i :| 0 <= i <= |s| && q <= s[i..];
        assert i == 0 && s[i..] == s;
      }
    }
  }

  /** Whatever occurs in the middle of a string is included in it. */
  lemma IncludesInfix(pre: string, q: string, post: string)
    ensures Includes(pre + q + post, q)
  {
    var s := pre + q + post;
    assert s[|pre|..] == q + post;
    IncludesAt(s, q);
  }

  /** If a longer text occurs in s, so does each of its prefixes. */
  lemma IncludesPrefixOf(s: string, q: string, e: string)
    requires Includes(s, q + e)
    ensures Includes(s, q)
  {
    IncludesAt(s, q + e);
    var i :| 0 <= i <= |s| && q + e <= s[i..];
    assert q <= s[i..];
    IncludesAt(s, q);
  }

  /** `s.indexOf(p)`: the offset of the first occurrence of p, if any. */
  function IndexOf(s: string, p: string): (r: Option<nat>)
    ensures r.Some? ==> r.value <= |s| && p <= s[r.value..]
    ensures r.Some? ==> forall j :: 0 <= j < r.value ==> !(p <= s[j..])
    ensures r.None? ==> forall j :: 0 <= j <= |s| ==> !(p <= s[j..])
    decreases |s|
  {
    if p <= s then Some(0)
    else if s == [] then None
    else
      var rest := IndexOf(s[1..], p);
      TailSuffixes(s);
      match rest
      case None => None
      case Some(i) => Some(i + 1)
  }

  /** Every non-empty suffix of s past its head is a suffix of its tail. */
  lemma TailSuffixes(s: string)
    requires s != []
    ensures forall j :: 1 <= j <= |s| ==> s[j..] == s[1..][j - 1..]
  {
  }

  /** `s.replace(p, rep)` with a string pattern: only the first occurrence
      of p is replaced; without one, s comes back unchanged. */
  function ReplaceFirst(s: string, p: string, rep: string): (r: string)
    ensures IndexOf(s, p).None? ==> r == s
    ensures IndexOf(s, p).Some? ==>
              var i := IndexOf(s, p).value;
              i + |p| <= |s| && s == s[..i] + p + s[i + |p|..] && r == s[..i] + rep + s[i + |p|..]
  {
    match IndexOf(s, p)
    case None => s
    case Some(i) =>
      Occurrence(s, p, i);
      s[..i] + rep + s[i + |p|..]
  }

  /** An occurrence of p at offset i cuts s into three pieces. */
  lemma Occurrence(s: string, p: string, i: nat)
    requires i <= |s| && p <= s[i..]
    ensures i + |p| <= |s| && s == s[..i] + p + s[i + |p|..]
  {
    assert s[i..i + |p|] == s[i..][..|p|] == p;
    assert s == s[..i] + s[i..i + |p|] + s[i + |p|..];
  }

  // ------------------------------------------------------- split and join

  /** The first position of c in s. */
  function FirstIndexOf(s: string, c: char): (i: nat)
    requires c in s
    ensures i < |s| && s[i] == c && c !in s[..i]
    decreases |s|
  {
    if s[0] == c then 0
    else
      assert c in s[1..];
      var i := FirstIndexOf(s[1..], c);
      assert s[..i + 1] == [s[0]] + s[1..][..i];
      i + 1
  }

  /** `parts.join(sep)` for a non-empty list of parts. */
  function Join(parts: seq<string>, sep: char): string
    requires |parts| >= 1
    decreases |parts|
  {
    if |parts| == 1 then parts[0] else parts[0] + [sep] + Join(parts[1..], sep)
  }

  lemma JoinPair(a: string, b: string, sep: char)
    ensures Join([a, b], sep) == a + [sep] + b
  {
    assert [a, b][1..] == [b];
  }

  /** Joining two or more parts puts the separator after the first two. */
  lemma JoinUnfold(parts: seq<string>, sep: char)
    requires |parts| >= 2
    ensures Join(parts, sep) == parts[0] + [sep] + parts[1]
              + (if |parts| == 2 then [] else [sep] + Join(parts[2..], sep))
  {
    assert parts[1..][1..] == parts[2..];
  }

  /** `s.split(sep)` for a one-character separator: the pieces between
      separators, always at least one (the empty string splits into [""]).
      Joining the pieces with the separator gives back s. */
  function Split(s: string, sep: char): (parts: seq<string>)
    ensures |parts| >= 1
    ensures forall k :: 0 <= k < |parts| ==> sep !in parts[k]
    ensures Join(parts, sep) == s
    decreases |s|
  {
    if sep !in s then [s]
    else
      var i := FirstIndexOf(s, sep);
      var rest := Split(s[i + 1..], sep);
      var parts := [s[..i]] + rest;
      assert parts[1..] == rest;
      assert s == s[..i] + [sep] + s[i + 1..];
      parts
  }

  /** Splitting a joined list gives the list back, provided no part holds
      the separator: `Split` and `Join` are inverse to each other. */
  lemma {:induction false} SplitJoin(parts: seq<string>, sep: char)
    requires |parts| >= 1
    requires forall k :: 0 <= k < |parts| ==> sep !in parts[k]
    ensures Split(Join(parts, sep), sep) == parts
    decreases |parts|
  {
    if |parts| == 1 {
      assert Join(parts, sep) == parts[0];
    } else {
      var a := parts[0];
      assert Join(parts, sep) == a + [sep] + Join(parts[1..], sep);
      SplitCons(a, Join(parts[1..], sep), sep);
      SplitJoin(parts[1..], sep);
      assert parts == [a] + parts[1..];
    }
  }

  /** A first piece free of the separator splits off on its own. */
  lemma SplitCons(a: string, tail: string, sep: char)
    requires sep !in a
    ensures Split(a + [sep] + tail, sep) == [a] + Split(tail, sep)
  {
    var s := a + [sep] + tail;
    assert s[|a|] == sep;
    assert s[..|a|] == a;
    var i := FirstIndexOf(s, sep);
    assert forall j :: 0 <= j < |a| ==> s[j] == s[..|a|][j];
    assert forall j :: 0 <= j < i ==> s[j] == s[..i][j];
    assert i == |a|;
    assert s[i + 1..] == tail;
  }

  // ----------------------------------------------------------------- trim

  /** The characters `String.prototype.trim` removes: the WhiteSpace and
      LineTerminator code points of ECMA-262 (sections 12.2 and 12.3). */
  predicate IsSpace(c: char) {
    var n := c as int;
    n == 0x09 || n == 0x0A || n == 0x0B || n == 0x0C || n == 0x0D || n == 0x20
    || n == 0xA0 || n == 0x1680 || (0x2000 <= n <= 0x200A) || n == 0x2028
    || n == 0x2029 || n == 0x202F || n == 0x205F || n == 0x3000 || n == 0xFEFF
  }

  predicate AllSpace(s: string) {
    forall i :: 0 <= i < |s| ==> IsSpace(s[i])
  }

  /** Neither starts nor ends with a space character. */
  predicate Trimmed(s: string) {
    s == [] || (!IsSpace(s[0]) && !IsSpace(s[|s| - 1]))
  }

  /** t is what is left of s once its leading space characters are cut. */
  predicate LeadingCut(s: string, t: string) {
    && |t| <= |s| && t == s[|s| - |t|..] && AllSpace(s[..|s| - |t|])
    && (t != [] ==> !IsSpace(t[0]))
  }

  /** r is what is left of t once its trailing space characters are cut. */
  predicate TrailingCut(t: string, r: string) {
    r <= t && AllSpace(t[|r|..]) && (r != [] ==> !IsSpace(r[|r| - 1]))
  }

  function TrimStart(s: string): (r: string)
    ensures LeadingCut(s, r)
    decreases |s|
  {
    if s != [] && IsSpace(s[0]) then
      var r := TrimStart(s[1..]);
      assert s[..|s| - |r|] == [s[0]] + s[1..][..|s[1..]| - |r|];
      r
    else s
  }

  function TrimEnd(s: string): (r: string)
    ensures TrailingCut(s, r)
    decreases |s|
  {
    if s != [] && IsSpace(s[|s| - 1]) then
      var r := TrimEnd(s[..|s| - 1]);
      assert s[|r|..] == s[..|s| - 1][|r|..] + [s[|s| - 1]];
      r
    else s
  }

  /** `s.trim()`: s with the leading and trailing space characters cut off;
      what remains is a contiguous slice of s that starts and ends with a
      non-space character. */
  function Trim(s: string): (r: string)
    ensures Trimmed(r)
    ensures exists i :: SpaceAround(s, i, r)
  {
    var t := TrimStart(s);
    var r := TrimEnd(t);
    TrimSlice(s, t, r);
    r
  }

  /** r sits at offset i of s with nothing but space characters around it. */
  predicate SpaceAround(s: string, i: int, r: string) {
    0 <= i <= |s| - |r| && r == s[i..i + |r|] && AllSpace(s[..i]) && AllSpace(s[i + |r|..])
  }

  lemma TrimSlice(s: string, t: string, r: string)
    requires LeadingCut(s, t) && TrailingCut(t, r)
    ensures Trimmed(r) && SpaceAround(s, |s| - |t|, r)
  {
    PrefixOfSuffix(s, t, r);
    assert r != [] ==> r[0] == t[0];
  }

  lemma PrefixOfSuffix(s: string, t: string, r: string)
    requires |t| <= |s| && t == s[|s| - |t|..] && r <= t
    ensures r == s[|s| - |t|..|s| - |t| + |r|]
    ensures s[|s| - |t| + |r|..] == t[|r|..]
  {
  }

  /** A string that is already trimmed is left alone by `Trim`. */
  lemma TrimOfTrimmed(s: string)
    requires Trimmed(s)
    ensures Trim(s) == s
  {
  }

  /** Leading space characters do not survive `TrimStart`. */
  lemma {:induction false} TrimStartSkipsSpace(w: string, x: string)
    requires AllSpace(w)
    requires x == [] || !IsSpace(x[0])
    ensures TrimStart(w + x) == x
    decreases |w|
  {
    if w == [] {
      assert w + x == x;
    } else {
      assert (w + x)[1..] == w[1..] + x;
      TrimStartSkipsSpace(w[1..], x);
    }
  }

  /** `TrimEnd` never cuts into a prefix that ends with a non-space
      character. */
  lemma TrimEndKeepsPrefix(p: string, s: string)
    requires p <= s && p != [] && !IsSpace(p[|p| - 1])
    ensures p <= TrimEnd(s)
  {
    var r := TrimEnd(s);
    forall k | |r| <= k < |s|
      ensures IsSpace(s[k])
    {
      assert s[k] == s[|r|..][k - |r|];
    }
    assert s[|p| - 1] == p[|p| - 1];
  }
}
